=== FILE: README.md ===
# malloc-tools in Dafny

A model of the bookkeeping in the three malloc-tools programs:

- **memleak.so** (`memleak.c`) replaces glibc's `__malloc_hook`, `__realloc_hook` and `__free_hook`.
  - Every allocation is served with `sizeof(allocation_t)` extra bytes in front of it.
  - That header records the requested size and a stack trace of at most 10 frames.
  - The header is inserted into a red-black tree keyed by header address.
  - At exit, `print_all` walks the tree and prints every block still allocated.
- **memlog.so** (`memlog.c`) uses the same hooks. It keeps no state: every call writes one record to stderr.
  - A record is a header line `m|r|f p1 p2`, the symbolised stack without its two innermost frames, and a blank line.
- **memlog.js** reads such a log.
  - It replays the `m`/`r`/`f` records into a map from pointer text to trace text.
  - It prints the entries that survive.

## How the model is laid out

| module | file | models |
|---|---|---|
| `Machine` | machine.dfy | addresses (`nat`, NULL = 0), `size_t` bounds, `Option` |
| `Hooks` | hooks.dfy | the hook globals, `hook()`, `unhook()` and the unhook/body/hook bracket |
| `Backtrace` | backtrace.dfy | stack capture depth and the two-frame skip |
| `LeakIndex` | leak_index.dfy | `compare_allocations` and the tree as a `map` with assert-guarded insert and remove |
| `LeakTracker` | leak_tracker.dfy | memleak.c's three hooks, `memdebug_init` and `print_all` |
| `LeakSession` | leak_session.dfy | whole runs of a program under memleak.so, with its balance invariant |
| `MemLogger` | mem_logger.dfy | memlog.c's three hooks as record-writing transitions |
| `PointerText` | pointer_text.dfy | `%p` rendering of a pointer: `(nil)` or `0x` plus lower-case hex |
| `LogAnalyser` | log_analyser.dfy | memlog.js: `split`, the line loop, the replay and the final dump |
| `LogPairing` | log_pairing.dfy | memlog.so's text read back by memlog.js, and what the result means |

Modelling choices:

- The real allocator's answer and the call chain that `backtrace()` walks are parameters of each hook call.
- A failed `assert` in memleak.c is an `Abort` outcome with its reason. It is not a precondition, so aborting runs are part of the model.
- memlog.js is modelled in two modes:
  - `AsWritten` is the code as it stands.
  - `Corrected` swaps the two fields an `r` record uses, and skips storing a `(nil)` result of an `m` or `r` record (see Findings).
- The address of a header is `ptr - H`, with `H = 128`. This is `sizeof(allocation_t)` on LP64. The proofs only use `H > 0` and that `H` is small enough for the scenario sizes (`64 + H` fits in size_t).
- A pointer below `H` has no header address and is untracked.

Four consequences of the code that are easy to get wrong:

- **Report order.** `compare_allocations` returns 1 when `a < b`, so the in-order walk from `RB_MIN` starts at the highest header address. The exit report is therefore in descending address order, not ascending.
- **Printed address.** `print_all` prints `a`, the header address, which is H bytes below the pointer the program holds. It does not print the pointer itself.
- **Log without a closing blank line.** When a record has no later blank line, the inner `while (log[++i] != '')` reads past the end of the array and keeps pushing `undefined` into the trace. The dump at memlog.js:39-41 is never reached; the script dies once the array can grow no further. The model does not require the log to be well formed. It returns `Diverges` for such a log, which has no final map and no dump.
- **The key `__proto__`.** `mem` is a plain object, so `mem["__proto__"] = trace` goes to the prototype setter, which ignores a string, and `delete mem["__proto__"]` removes nothing. The model's `Put` and `Delete` leave the map unchanged for that key. memlog.so never prints it, since every printed pointer starts with `(` or `0`.

## Model

| member | source | states |
|---|---|---|
| LeakIndex.Compare | memleak.c:47-52 | 0 exactly for the same header; 1 exactly when a < b; -1 exactly when a > b |
| LeakIndex.CompareAntisymmetric | memleak.c:47-52 | swapping the arguments negates the result |
| LeakIndex.BeforeIsReversedStrictTotalOrder | memleak.c:47-52 | the tree order is irreflexive, asymmetric, transitive and total, and a precedes b exactly when a > b |
| LeakIndex.Insert | memleak.c:107 | the assert fails exactly when the key is already present; otherwise exactly one key is added, holding the new record, and every other entry is unchanged |
| LeakIndex.Remove | memleak.c:123-127 | the assert fails exactly when the key is absent; otherwise exactly that key is removed, and every remaining entry is unchanged |
| LeakIndex.HeaderOf | memleak.c:123 | a header address exists exactly for pointers >= H, and adding H to it gives back the pointer |
| Hooks.Around | memleak.c:60-76 | from an armed switch, the body runs with no slot routed to the interceptor, and the call leaves the switch exactly as it found it; in every case the interceptor is live afterwards |
| Hooks.InitArms | memleak.c:164-170 | the single hook() at init arms the switch exactly when the hooks found in place are not the interceptor |
| Hooks.HookTwiceReenters | memlog.c:40-56 | a second hook() would save the interceptor itself, so the next unhook() leaves it live |
| Backtrace.Capture | memleak.c:55-57 | the capture is a prefix of the chain, no longer than the buffer; it fills the buffer when the chain is deep enough and is the whole chain otherwise |
| Backtrace.Shown | memleak.c:89-91 | the rendered frames are frames 2 onward; there are none when the capture has at most 2 frames |
| LeakTracker.RequestWrapsBelowHeader | memleak.c:103 | as written, size + sizeof(allocation_t) wraps in size_t; for size = SIZE_MAX - H + 1 the request is smaller than the header alone |
| LeakTracker.Request | memleak.c:103 | the corrected request is size + H; it is refused exactly when that exceeds SIZE_MAX, and agrees with the wrapping sum whenever it is not refused |
| LeakTracker.MallocHook | memleak.c:98-112 | aborts exactly on a refused request, a NULL block or a block already indexed; otherwise asks the real malloc for size + H bytes and returns base + H, whose header is the one new key, recording that size and this call's own capture of at most 10 frames; all other entries are kept; the switch is restored |
| LeakTracker.ReallocHook | memleak.c:115-142 | realloc(NULL, n) is malloc(n); an untracked pointer aborts; for a tracked pointer it aborts exactly on a refused request, a NULL block or a clash with another entry; otherwise it asks the real realloc to resize the block at ptr - H to size + H bytes, and the old header ptr - H is replaced by the new one at base, recording the new size and this call's own capture; the number of entries is unchanged and the switch is restored |
| LeakTracker.FreeHook | memleak.c:145-161 | free(NULL) leaves the index alone and makes no real call; otherwise it aborts exactly when ptr - H is not a key; on success exactly that key is removed, other entries are kept, the real free gets the block at ptr - H, and the switch is restored |
| LeakTracker.DoubleFreeAborts | memleak.c:150-155 | freeing the same non-NULL pointer twice aborts on the second free |
| LeakTracker.Init | memleak.c:164-170 | starts with an empty index, saves the hooks in place, and is armed exactly when those were not the interceptor |
| LeakTracker.TreeMin | memleak.c:84 | RB_MIN picks an entry that precedes every other entry in tree order |
| LeakTracker.PrintAll | memleak.c:79-95 | unhooks for good; reports each index entry exactly once, in strict tree order (descending address); each block carries the header's size and its frames from index 2 on; the index is only read |
| LeakSession.Step | memleak.c:98-161 | every completed call ran with no slot routed to the interceptor and leaves an armed switch as it found it |
| LeakSession.StepKeys | memleak.c:98-161 | a completed malloc adds the new block's header and returns base + H; a completed realloc also returns base + H and trades the old header, if any, for the new one; a completed free drops the freed header and returns nothing |
| LeakSession.MallocKeys | memleak.c:98-112 | a completed malloc adds the header at base and returns base + H |
| LeakSession.ReallocKeys | memleak.c:115-142 | a completed realloc trades the old header, if any, for the one at base and returns base + H |
| LeakSession.FreeKeys | memleak.c:145-161 | a completed free drops the freed header, if any, and returns nothing |
| LeakSession.StepEntries | memleak.c:98-161 | a completed malloc or realloc records the size asked for and this call's own capture at the new block's header, and keeps every entry it does not drop exactly as it was; a completed free keeps every remaining entry as it was |
| LeakSession.RunCalls | memleak.c:98-161 | a completed run returns one pointer per call; an aborted run names a call that exists |
| LeakSession.RunAbortsAt | memleak.c:107-155 | an aborted run completed every call before the one it names, and that call failed for the reason the run gives: the process dies at the first failing assert |
| LeakSession.UnheldPointerAborts | memleak.c:123-125 | free aborts exactly on a non-NULL pointer the program does not hold, such as a stale or doubly freed one; realloc of such a pointer aborts |
| LeakSession.TracksCount | memleak.c:107 | while the index tracks the program's pointers, it has exactly one entry per held pointer |
| LeakSession.HeadedAfter | memleak.c:98-161 | the key change of every completed call matches the change in the program's own view: malloc adds its result, realloc trades its input for its result, free gives its argument back |
| LeakSession.RecordedAfter | memleak.c:98-161 | after every completed call, each pointer the program holds has a header recording the size and the stack capture of the call that last returned that pointer |
| LeakSession.StepTracks | memleak.c:98-161 | every completed call keeps the index in step with the program's own view of the pointers it holds, their sizes and the stacks that allocated them |
| LeakSession.Balance | memleak.c:98-161 | after any completed run, the index keys are exactly the headers of the pointers still held, each header records the size and stack capture of the call that last returned its pointer, and the switch is unchanged |
| LeakSession.EmptyRunLeavesEmptyIndex | memleak.c:84 | when the program holds nothing, a tracked index is empty |
| LeakSession.ReportNamesHeld | memleak.c:79-95 | a report listing every entry of a tracked index has one block per held pointer, at that pointer's header, giving the size the program asked for and frames 2 onward of the stack that asked for it |
| LeakSession.FinishedReport | memleak.c:79-170 | from init, any completed run's exit report names exactly the headers of the pointers still held, each with the size and shown frames of the call that last returned that pointer |
| LeakSession.Session | memleak.c:79-170 | init, the calls, then print_all: a completed run reports exactly the held pointers' headers, each block matching its index entry and giving the size and frames 2 onward of the stack of the call that last returned that pointer, in descending header order; an aborted run prints nothing |
| LeakSession.ScenarioLeak | memleak.c:98-112 | malloc(16) never freed leaves one header of size 16 at the returned pointer minus H |
| LeakSession.ScenarioFreed | memleak.c:145-161 | malloc then free of the returned pointer leaves an empty index |
| LeakSession.RunPrepend | memleak.c:98-161 | a run is its first completed call followed by the run of the rest |
| LeakSession.MallocThenRealloc | memleak.c:115-142 | malloc(8) then realloc to 64 leaves exactly the new block's header |
| LeakSession.ScenarioRealloc | memleak.c:115-161 | malloc, realloc (possibly moving), then free of the new pointer leaves an empty index |
| LeakSession.ScenarioStaleFree | memleak.c:150-155 | freeing the old pointer after a moving realloc aborts the process at the third call |
| LeakSession.ScenarioReallocNull | memleak.c:130-141 | realloc(NULL, 32) equals malloc(32): no removal, one new header of size 32 |
| MemLogger.PrintFunction | memlog.c:28-37 | the record carries the tag and both pointers; it has at most 20 frames, exactly the capture minus 2, taken from frame 2 of the chain; a capture of two frames or fewer writes none |
| MemLogger.MallocHook | memlog.c:59-71 | returns the real pointer unchanged; real malloc first, then exactly one "m got (nil)" record; the switch is restored |
| MemLogger.ReallocHook | memlog.c:74-84 | returns the real realloc result; real realloc first, then exactly one "r ptr got" record, input pointer first; the switch is restored |
| MemLogger.FreeHook | memlog.c:87-95 | exactly one "f ptr (nil)" record is written before the real free; the switch is restored |
| MemLogger.Init | memlog.c:98-100 | nothing is written yet, and the switch is armed exactly when the hooks in place were not the interceptor |
| MemLogger.Serve | memlog.c:59-95 | each served request writes exactly its own record and restores the switch |
| MemLogger.RunFirst | memlog.c:59-95 | a run is its first call followed by the rest |
| MemLogger.RunWritesOneRecordPerCall | memlog.c:59-95 | a run appends exactly one record per call, in call order |
| MemLogger.RunKeepsHooks | memlog.c:62-94 | an armed switch is unchanged by any run |
| PointerText.DigitInjective | memlog.c:34 | each hex digit is a lower-case hex character, and distinct values give distinct digits |
| PointerText.Hex | memlog.c:34 | the hex text of a positive number is non-empty hex digits, a single digit exactly below 16 |
| PointerText.HexInjective | memlog.c:34 | distinct positive numbers have distinct hex texts |
| PointerText.PtrText | memlog.c:34 | %p text is non-empty and contains no space or newline, so it survives split(' ') and split('\n') |
| PointerText.PtrTextInjective | memlog.c:34 | two pointers print the same exactly when they are equal |
| LogAnalyser.Split | memlog.js:6 | split yields at least one part, no part contains the separator, and joining them back gives the input |
| LogAnalyser.SplitWithoutSeparator | memlog.js:10 | a string without the separator splits into itself alone |
| LogAnalyser.SplitAtFirst | memlog.js:10 | the text before the first separator is the first field |
| LogAnalyser.Apply | memlog.js:21-35 | m sets field 1 and changes no other key, except that corrected, a (nil) field 1 is not stored; f removes field 1 and nothing else; r as written removes field 2 then sets field 1; corrected, r removes field 1 and sets field 2, and a (nil) result is not stored; a non-record changes nothing; the key `__proto__` is never set or removed, as on the plain object of memlog.js:7 |
| LogAnalyser.ProtoRecordIgnored | memlog.js:7 | a record "m __proto__ ..." with any trace leaves the map as it was |
| LogAnalyser.NextBlank | memlog.js:14 | finds the first empty line at or after k, or reports that none follows |
| LogAnalyser.SkipsNonRecord | memlog.js:13-19 | a line whose first field is not m, r or f leaves the map alone and is skipped |
| LogAnalyser.RecordTakesTraceToBlank | memlog.js:13-16 | a record's trace is exactly the lines up to the next blank one, and scanning resumes after it |
| LogAnalyser.TraceThenBlank | memlog.js:14-16 | the blank line that ends a trace is the first one after the record |
| LogAnalyser.RecordWithoutBlankDiverges | memlog.js:14 | a record with no later blank line leaves the replay without a final map, so the dump is never reached |
| LogAnalyser.NextBlankIs | memlog.js:14 | the first blank line after k is the one NextBlank finds |
| LogAnalyser.CollectTrace | memlog.js:14-16 | the inner loop collects exactly the non-blank lines after the record and stops at the blank line, or reaches the end of the log, where the script would read past it |
| LogAnalyser.ReplaySkipAt | memlog.js:17-18 | in the line loop, a non-record line moves to the next line |
| LogAnalyser.ReplayRecordAt | memlog.js:13-35 | in the line loop, a record applies its trace and resumes after the blank line |
| LogAnalyser.ReplayDivergesAt | memlog.js:14 | in the line loop, a record with no later blank line leaves no final map |
| LogAnalyser.ReplayAppend | memlog.js:9-36 | lines after a log whose replay finishes are replayed from the map it finished with |
| LogAnalyser.TrailingBlankIgnored | memlog.js:6 | the empty string that split('\n') leaves after a final newline changes nothing |
| LogAnalyser.Analyse | memlog.js:9-36 | the imperative loop computes the same outcome as the recursive replay |
| LogAnalyser.Dump | memlog.js:39-41 | exactly one block per key left in the map, keys distinct, each block the key, its trace and two newlines |
| LogPairing.SymbolLines | memlog.c:35 | one rendered line per shown frame, in order |
| LogPairing.SplitWritten | memlog.js:6 | split('\n') of newline-terminated lines gives back the lines, followed by one empty string |
| LogPairing.LogLinesOneLineEach | memlog.c:34-36 | no line memlog.so writes contains a newline of its own |
| LogPairing.PrintedIsNotProto | memlog.c:34 | no printed pointer is the key `__proto__` |
| LogPairing.PrintedNil | memlog.c:34 | a pointer prints as (nil) exactly when it is NULL |
| LogPairing.HeaderFields | memlog.c:34 | the header line splits back into the tag and the two pointer texts |
| LogPairing.BlockReplays | memlog.js:13-35 | one written record, read back, applies that event to the map |
| LogPairing.AnalyserReplaysEvents | memlog.js:9-36 | the analyser, run on the text of any event sequence, finishes with the replay of the events themselves |
| LogPairing.PrintedAdd | memlog.c:34 | adding a pointer adds exactly its text |
| LogPairing.PrintedRemove | memlog.c:34 | removing a pointer removes exactly its text |
| LogPairing.CorrectedReportsHeld | memlog.js:21-35 | with the r fields corrected and NULL results not stored, the surviving keys are exactly the texts of the pointers the program still holds, a NULL result counting as no pointer |
| LogPairing.ReallocMisreported | memlog.js:22-28 | as written, malloc P, realloc P to Q and free Q leaves P reported though nothing is held |
| LogPairing.MovedAndFreedHoldsNothing | memlog.c:59-95 | a program that mallocs P, reallocs it to Q and frees Q holds nothing at the end, NULL results included |
| LogPairing.ReallocCorrected | memlog.js:22-28 | with the r fields corrected, the same log reports nothing |
| LogPairing.NilMallocReported | memlog.js:25-27 | as written, the log of a failed malloc, "m (nil) (nil)", leaves a `(nil)` key to be printed as a leak, though the program holds nothing |
| LogPairing.NilMallocCorrected | memlog.js:25-27 | with `(nil)` results skipped, the same log reports nothing |
| LogPairing.FreedInHas | memlog.js:31-33 | every freed pointer's text is in the freed set |
| LogPairing.AllFreedShrinks | memlog.js:21-35 | a log with no r records where every m pointer is later freed removes every freed key and adds none that survive |
| LogPairing.AllFreedPrintsNothing | memlog.js:39-41 | such a log produces no block |
| LogPairing.LoggedRunReplays | memlog.c:59-95 | end to end: the lines memlog.so writes for any run, read by the script, give the event replay of that run's records |
| LogPairing.LoggedTextReplays | memlog.js:6 | the same from the written text: split at newlines and read by the script, it gives the event replay of the run's records |

## Left out

- The red-black tree itself (tree.h is not part of this model). The index is a `map`, and the in-order walk is stated through the comparison.
- `backtrace`, `backtrace_symbols` and `backtrace_symbols_fd`. The call chain is a parameter, and the model renders a symbol line as `[` + %p text + `]`. Real symbol text is not modelled.
- `printf`, `fprintf`, `fs.readFileSync` and `console.log`. memleak's report is a sequence of `Leak` values. memlog's output is a sequence of events with a rendering into lines. The analyser's input is the sequence of lines and its output is the sequence of dump blocks.
- The interleaving of stderr and stdout, and writes of the target program to the same streams. Lines not written by memlog.so are covered only as non-record lines.
- `LD_PRELOAD`, `__malloc_initialize_hook` and `atexit` registration (memleak.c:167, memleak.c:172, memlog.c:102). Init is one `hook()` on an empty index. `print_all` is a separate operation called at the end of a session.
- Hooks.Around: assumes the body (the real allocator call, backtrace() and the bookkeeping) writes none of `__malloc_hook`, `__realloc_hook` and `__free_hook`. glibc's initial hooks (`malloc_hook_ini`, `realloc_hook_ini`) clear those slots on their first call. If a `hook()` saved one of them, the closing `hook()` saves NULL instead, so `saved` changes while the interceptor stays live. `LeakSession.Balance` and `MemLogger.RunKeepsHooks` (the switch unchanged after a run) rest on the same assumption.
- Threads. The hook globals and the tree are unprotected in the source. The model is sequential.
- 64-bit wrap-around of pointer arithmetic (`ptr - sizeof(allocation_t)`, `a + sizeof(allocation_t)`). Addresses are unbounded naturals, and a pointer below H is untracked.
- Allocator failure. The source dereferences a NULL result unchecked, which is undefined behaviour. The model aborts with `OutOfMemory` when the real allocator returns NULL.
- LeakTracker.MallocHook: with `Request` refusing a size whose header-inflated request overflows, this hook aborts where the source would wrap. See Findings.
- LeakTracker.ReallocHook: aborts with `OutOfMemory` on the same overflowing sizes, where the source would wrap.
- LogAnalyser.Dump: fixes no order between keys. JavaScript enumerates the object's keys in insertion order, and the map does not keep it.
- LogPairing.CorrectedReportsHeld: an `r P (nil)` record counts P as released, which is what realloc(P, 0) does. A realloc that fails for a non-zero size also returns NULL but leaves P valid; the log does not tell the two apart, so the model does not either.
- memlog.so's `hook()` at init is the same `Hooks.Hook` as memleak.so's, so the memlog.c:40-56 hook functions have no separate members.

## Findings

| source | as written | input that shows it | evidently intended | confidence | as-written member | corrected member |
|---|---|---|---|---|---|---|
| memleak.c:103, memleak.c:129, memleak.c:131 | `size + sizeof(allocation_t)` is computed in size_t and wraps | malloc(SIZE_MAX - H + 1) asks the real allocator for 0 bytes, then writes the header past the block's end | refuse a request whose header-inflated size overflows, like any failed allocation | not executed | LeakTracker.RequestWrapsBelowHeader | LeakTracker.Request |
| memlog.js:22-28 | an `r` record deletes `mem[line[2]]` (the new pointer) and falls through to store the trace under `line[1]` (the old pointer) | the log "m P", "r P Q", "f Q": the program holds nothing, yet P is printed as leaked | delete the old pointer `line[1]` and store the trace under the new pointer `line[2]`, unless that result is `(nil)` | not executed | LogPairing.ReallocMisreported | LogPairing.CorrectedReportsHeld |
| memlog.js:25-27 | an `m` record stores its trace under `line[1]` even when that is `(nil)` | the log of a failed malloc, "m (nil) (nil)": the program holds nothing, yet a block at `(nil)` is printed as leaked | store nothing for a `(nil)` result | not executed | LogPairing.NilMallocReported | LogPairing.NilMallocCorrected |

=== FILE: backtrace.dfy ===
/** Stack capture as both libraries use it. backtrace() itself is a glibc
    call and is not modelled: the call chain it walks is a parameter, most
    recent frame first. */
module Backtrace {
  import opened Machine

  /** Frames kept per allocation by the leak tracker: the length of the
      `trace` array in allocation_t. */
  const LEAK_DEPTH: nat := 10

  /** memlog.c's STACKTRACE_LINES. */
  const STACKTRACE_LINES: nat := 20

  /** Frames captured per logged call: STACKTRACE_LINES + 2. */
  const LOG_DEPTH: nat := STACKTRACE_LINES + 2

  /** Frames at the top of every capture that belong to the interceptor
      itself (the capturing helper and the hook function); renderers skip them. */
  const INTERNAL_FRAMES: nat := 2

  /** backtrace(buffer, depth): the innermost `depth` frames of the chain,
      or the whole chain when it is shallower. */
  function Capture(chain: seq<Addr>, depth: nat): (frames: seq<Addr>)
    ensures |frames| <= depth && |frames| <= |chain|
    ensures |chain| >= depth ==> |frames| == depth
    ensures |chain| <= depth ==> frames == chain
    ensures forall i :: 0 <= i < |frames| ==> frames[i] == chain[i]
  {
    if |chain| <= depth then chain else chain[..depth]
  }

  /** The frames a report renders: all but the first INTERNAL_FRAMES, and
      none when the capture is no deeper than that. */
  function Shown(frames: seq<Addr>): (shown: seq<Addr>)
    ensures |frames| <= INTERNAL_FRAMES ==> shown == []
    ensures |frames| > INTERNAL_FRAMES ==> |shown| == |frames| - INTERNAL_FRAMES
    ensures forall i :: 0 <= i < |shown| ==> shown[i] == frames[i + INTERNAL_FRAMES]
  {
    if |frames| <= INTERNAL_FRAMES then [] else frames[INTERNAL_FRAMES..]
  }
}

=== FILE: hooks.dfy ===
/** The hook switch used by both libraries (memleak.c:60-76 and
    memlog.c:40-56 are identical): three global slots naming the function
    that services realloc, malloc and free, plus the three values saved by
    the last `hook()`. */
module Hooks {

  /** What a hook slot holds: the library's own interceptor, or some other
      function (glibc's default hook or another tool's), told apart by an id. */
  datatype Slot = Interceptor | Native(id: nat)

  datatype Table = Table(realloc: Slot, malloc: Slot, free: Slot)

  /** `current` is the live __realloc_hook/__malloc_hook/__free_hook triple,
      `saved` the old_*_hook triple. */
  datatype HookState = HookState(current: Table, saved: Table)

  const Intercepting: Table := Table(Interceptor, Interceptor, Interceptor)

  /** No slot of `t` routes a call back into the interceptor: an allocation
      made while `t` is live cannot re-enter it. */
  predicate Bypasses(t: Table) {
    t.realloc != Interceptor && t.malloc != Interceptor && t.free != Interceptor
  }

  /** The steady state between intercepted calls: the interceptor is live
      and the saved triple leads back to the real allocator. */
  predicate Armed(s: HookState) {
    s.current == Intercepting && Bypasses(s.saved)
  }

  /** hook(): each slot's current value is saved, then the interceptor is
      installed in it. */
  function Hook(s: HookState): HookState {
    HookState(Intercepting, s.current)
  }

  /** unhook(): each slot gets back the value the last hook() saved. */
  function Unhook(s: HookState): HookState {
    HookState(s.saved, s.saved)
  }

  /** A call that ran with `during` live and left `after` behind kept the
      hook()/unhook() round trip: whenever it started armed, its body
      bypassed the interceptor and the switch ends as it was found. */
  predicate Restored(before: HookState, during: Table, after: HookState) {
    Armed(before) ==> Bypasses(during) && after == before
  }

  /** One intercepted call's view of the switch: the table live while the
      body runs (the real allocator call, the stack capture, the bookkeeping)
      and the state left behind by the closing hook(). */
  datatype Bracketed = Bracketed(during: Table, after: HookState)

  /** The unhook(); body; hook(); shape every interceptor follows, with its
      single exit path. From an armed state the body runs with every slot
      bypassing the interceptor, and the call leaves the switch exactly as
      it found it: interceptor live, saved hooks unchanged. */
  function Around(s: HookState): (b: Bracketed)
    ensures Armed(s) ==> Bypasses(b.during) && b.after == s
    ensures b.after.current == Intercepting
  {
    var off := Unhook(s);
    Bracketed(off.current, Hook(off))
  }

  /** memdebug_init: the single hook() at load time arms the switch exactly
      when the hooks it finds in place are not already the interceptor. */
  lemma InitArms(s: HookState)
    ensures Armed(Hook(s)) <==> Bypasses(s.current)
  {
  }

  /** Why initialisation must happen once: a second hook() saves the
      interceptor itself, so the next unhook() would leave it live and the
      interceptor's own allocations would re-enter it. */
  lemma HookTwiceReenters(s: HookState)
    ensures !Bypasses(Unhook(Hook(Hook(s))).current)
  {
  }
}

=== FILE: leak_index.dfy ===
/** memleak.c's allocation index: the red-black tree of allocation_t headers
    keyed by header address, with the reversed comparison the tree is built
    on. The tree is a map; its in-order walk is stated through `Before`. */
module LeakIndex {
  import opened Machine

  /** sizeof(allocation_t) on LP64: tree links (3 pointers and a colour,
      padded to 32 bytes), size (8), trace[10] (80) and trace_size (8). Only
      H > 0 matters to the proofs. */
  const H: nat := 128

  /** The header kept in front of each payload: requested size and trace. */
  datatype Record = Record(size: Size, trace: seq<Addr>)

  /** Header address |-> header. */
  type Index = map<Addr, Record>

  /** compare_allocations: 0 for the same header, otherwise the sign is the
      reverse of numeric order (a lower address compares greater). */
  function Compare(a: Addr, b: Addr): (c: int)
    ensures c == 0 <==> a == b
    ensures c == 1 <==> a < b
    ensures c == -1 <==> a > b
  {
    if a == b then 0 else if a < b then 1 else -1
  }

  /** `a` precedes `b` in the tree's in-order walk (RB_MIN first, RB_NEXT
      after), i.e. `a` compares less than `b`. */
  predicate Before(a: Addr, b: Addr) {
    Compare(a, b) < 0
  }

  lemma CompareAntisymmetric(a: Addr, b: Addr)
    ensures Compare(a, b) == -Compare(b, a)
  {
  }

  /** `Before` is a strict total order on addresses, the reverse of numeric
      order: the walk (and so the leak report) runs from the highest header
      address down. */
  lemma BeforeIsReversedStrictTotalOrder(a: Addr, b: Addr, c: Addr)
    ensures Before(a, b) <==> a > b
    ensures !Before(a, a)
    ensures Before(a, b) ==> !Before(b, a)
    ensures Before(a, b) && Before(b, c) ==> Before(a, c)
    ensures a != b ==> Before(a, b) || Before(b, a)
  {
  }

  /** RB_INSERT wrapped in assert(... == 0): None is the failed assertion
      (an entry with that header address exists already). */
  function Insert(idx: Index, key: Addr, rec: Record): (r: Option<Index>)
    ensures r.None? <==> key in idx
    ensures r.Some? ==> key in r.value && r.value[key] == rec
    ensures r.Some? ==> r.value.Keys == idx.Keys + {key} && |r.value| == |idx| + 1
    ensures r.Some? ==> forall k :: k in idx ==> r.value[k] == idx[k]
  {
    if key in idx then None else Some(idx[key := rec])
  }

  /** RB_FIND then RB_REMOVE, each wrapped in an assert: None is the failed
      assertion (no entry has that header address). */
  function Remove(idx: Index, key: Addr): (r: Option<Index>)
    ensures r.None? <==> key !in idx
    ensures r.Some? ==> r.value.Keys == idx.Keys - {key} && |r.value| == |idx| - 1
    ensures r.Some? ==> forall k :: k in r.value ==> r.value[k] == idx[k]
  {
    if key !in idx then None else Some(idx - {key})
  }

  /** The header address of a payload pointer: `ptr - sizeof(allocation_t)`.
      A pointer lower than H has none (the subtraction would leave the
      address space), so no entry can be found for it. */
  function HeaderOf(ptr: Addr): (r: Option<Addr>)
    ensures r.Some? <==> ptr >= H
    ensures r.Some? ==> r.value + H == ptr
  {
    if ptr >= H then Some(ptr - H) else None
  }
}

=== FILE: leak_session.dfy ===
/** Whole runs of a process under memleak.so: a sequence of intercepted
    calls from the target program, the program's own view of which
    pointers it holds, and the balance between that view and the index. */
module LeakSession {
  import opened Machine
  import opened Hooks
  import opened LeakIndex
  import opened LeakTracker
  import opened Backtrace

  /** One allocator call made by the target program, together with what the
      real allocator answers for it (`base`) and the chain backtrace() sees. */
  datatype Call =
    | Malloc(size: Size, base: Addr, chain: seq<Addr>)
    | Realloc(ptr: Addr, size: Size, base: Addr, chain: seq<Addr>)
    | Free(ptr: Addr)

  /** What a completed call does to the index keys and what it returns:
      malloc adds the new block's header, realloc trades the old header (if
      any) for the new one, free drops the freed header; the pointer handed
      back is the new block's base + H, or NULL for free. */
  ghost predicate KeysAfter(before: set<Addr>, c: Call, o: Outcome)
    requires o.Done?
  {
    var after := o.tracker.index.Keys;
    match c
    case Malloc(_, base, _) =>
      o.ret == base + H && after == before + {base}
    case Realloc(ptr, _, base, _) =>
      && o.ret == base + H
      && (ptr == NULL ==> after == before + {base})
      && (ptr != NULL ==> ptr >= H && after == before - {ptr - H} + {base})
    case Free(ptr) =>
      && o.ret == NULL
      && (ptr == NULL ==> after == before)
      && (ptr != NULL ==> ptr >= H && after == before - {ptr - H})
  }

  /** What a completed call does to the entries: the new block's header
      records the size asked for and the call's own stack, and every other
      entry the call does not drop is kept as it was. */
  ghost predicate EntriesAfter(before: Index, c: Call, o: Outcome)
    requires o.Done?
  {
    var after := o.tracker.index;
    match c
    case Malloc(size, base, chain) =>
      && base in after && after[base] == Fresh(size, chain)
      && (forall k :: k in before ==> k in after && after[k] == before[k])
    case Realloc(ptr, size, base, chain) =>
      && base in after && after[base] == Fresh(size, chain)
      && (forall k :: k in before && k != ptr - H ==> k in after && after[k] == before[k])
    case Free(_) =>
      forall k :: k in after ==> k in before && after[k] == before[k]
  }

  /** One intercepted call. A completed call leaves an armed switch armed. */
  function Step(t: Tracker, c: Call): (o: Outcome)
    ensures o.Done? ==> Restored(t.hooks, o.during, o.tracker.hooks)
  {
    match c
    case Malloc(size, base, chain) => MallocHook(t, size, base, chain)
    case Realloc(ptr, size, base, chain) => ReallocHook(t, ptr, size, base, chain)
    case Free(ptr) => FreeHook(t, ptr)
  }

  /** A completed call changes the keys as `KeysAfter` says. */
  lemma StepKeys(t: Tracker, c: Call)
    requires Step(t, c).Done?
    ensures KeysAfter(t.index.Keys, c, Step(t, c))
  {
    match c
    case Malloc(size, base, chain) => MallocKeys(t, size, base, chain);
    case Realloc(ptr, size, base, chain) => ReallocKeys(t, ptr, size, base, chain);
    case Free(ptr) => FreeKeys(t, ptr);
  }

  lemma MallocKeys(t: Tracker, size: Size, base: Addr, chain: seq<Addr>)
    requires MallocHook(t, size, base, chain).Done?
    ensures KeysAfter(t.index.Keys, Malloc(size, base, chain), MallocHook(t, size, base, chain))
  {
  }

  lemma ReallocKeys(t: Tracker, ptr: Addr, size: Size, base: Addr, chain: seq<Addr>)
    requires ReallocHook(t, ptr, size, base, chain).Done?
    ensures KeysAfter(t.index.Keys, Realloc(ptr, size, base, chain), ReallocHook(t, ptr, size, base, chain))
  {
    if ptr == NULL {
      MallocKeys(t, size, base, chain);
    }
  }

  lemma FreeKeys(t: Tracker, ptr: Addr)
    requires FreeHook(t, ptr).Done?
    ensures KeysAfter(t.index.Keys, Free(ptr), FreeHook(t, ptr))
  {
  }

  /** A completed call changes the entries as `EntriesAfter` says. */
  lemma StepEntries(t: Tracker, c: Call)
    requires Step(t, c).Done?
    ensures EntriesAfter(t.index, c, Step(t, c))
  {
    match c
    case Malloc(size, base, chain) =>
      assert Step(t, c) == MallocHook(t, size, base, chain);
    case Realloc(ptr, size, base, chain) =>
      assert Step(t, c) == ReallocHook(t, ptr, size, base, chain);
    case Free(ptr) =>
      assert Step(t, c) == FreeHook(t, ptr);
  }

  /** A run either completes every call, collecting what each returned, or
      aborts at call number `at`. */
  datatype Run =
    | Finished(tracker: Tracker, rets: seq<Addr>)
    | Aborted(at: nat, reason: Fatal)

  function RunCalls(t: Tracker, calls: seq<Call>): (r: Run)
    ensures r.Finished? ==> |r.rets| == |calls|
    ensures r.Aborted? ==> r.at < |calls|
    decreases |calls|
  {
    if calls == [] then Finished(t, [])
    else match Step(t, calls[0])
      case Abort(why) => Aborted(0, why)
      case Done(next, ret, _, _) =>
        match RunCalls(next, calls[1..])
        case Aborted(i, why) => Aborted(i + 1, why)
        case Finished(last, rets) => Finished(last, [ret] + rets)
  }

  /** The program's view of its heap: each pointer it holds, with the size
      it last asked for at that pointer and the first LEAK_DEPTH frames of
      the stack that asked for it. */
  type Heap = map<Addr, Record>

  /** An aborted run completed every call before call `at`, and call `at`
      failed for the reason the run gives: the process dies at the first
      failing assert. */
  lemma {:induction false} RunAbortsAt(t: Tracker, calls: seq<Call>)
    requires RunCalls(t, calls).Aborted?
    ensures var r := RunCalls(t, calls);
            var before := RunCalls(t, calls[..r.at]);
            && before.Finished?
            && Step(before.tracker, calls[r.at]) == Abort(r.reason)
    decreases |calls|
  {
    var c, rest := calls[0], calls[1..];
    assert calls == [c] + rest;
    if Step(t, c).Done? {
      var next := Step(t, c).tracker;
      RunPrepend(t, c, rest);
      var r1 := RunCalls(next, rest);
      RunAbortsAt(next, rest);
      var pre := rest[..r1.at];
      RunPrepend(t, c, pre);
      assert calls[..r1.at + 1] == [c] + pre;
      assert rest[r1.at] == calls[r1.at + 1];
    } else {
      assert calls[..0] == [];
    }
  }

  /** The program's view after a call returned `ret`: malloc adds the new
      pointer with its size and stack, realloc trades the old pointer for
      the new one with the new size and stack, free gives the pointer back. */
  function Observe(held: Heap, c: Call, ret: Addr): Heap {
    match c
    case Malloc(size, _, chain) => held[ret := Fresh(size, chain)]
    case Realloc(ptr, size, _, chain) => (held - {ptr})[ret := Fresh(size, chain)]
    case Free(ptr) => held - {ptr}
  }

  function Held(held: Heap, calls: seq<Call>, rets: seq<Addr>): Heap
    requires |rets| == |calls|
    decreases |calls|
  {
    if calls == [] then held
    else Held(Observe(held, calls[0], rets[0]), calls[1..], rets[1..])
  }

  /** Payload pointers of a set of header addresses. */
  ghost function Payloads(headers: set<Addr>): set<Addr> {
    set k | k in headers :: k + H
  }

  lemma PayloadsAdd(headers: set<Addr>, k: Addr)
    ensures Payloads(headers + {k}) == Payloads(headers) + {k + H}
  {
    forall p | p in Payloads(headers + {k}) ensures p in Payloads(headers) + {k + H} {
      var j :| j in headers + {k} && j + H == p;
      if j != k {
        assert j in headers;
      }
    }
  }

  lemma PayloadsRemove(headers: set<Addr>, k: Addr)
    ensures Payloads(headers - {k}) == Payloads(headers) - {k + H}
  {
    forall p | p in Payloads(headers) - {k + H} ensures p in Payloads(headers - {k}) {
      var j :| j in headers && j + H == p;
      assert j in headers - {k};
    }
  }

  lemma PayloadsCard(headers: set<Addr>)
    ensures |Payloads(headers)| == |headers|
  {
    if headers != {} {
      var k :| k in headers;
      PayloadsCard(headers - {k});
      PayloadsRemove(headers, k);
      PayloadsAdd(headers - {k}, k);
      assert headers - {k} + {k} == headers;
    }
  }

  /** `keys` are exactly the header addresses of the pointers in `held`. */
  ghost predicate Headed(held: set<Addr>, keys: set<Addr>) {
    forall p: Addr :: p in held <==> p >= H && p - H in keys
  }

  lemma HeadedAdd(held: set<Addr>, keys: set<Addr>, k: Addr)
    requires Headed(held, keys)
    ensures Headed(held + {k + H}, keys + {k})
  {
    var next := held + {k + H};
    forall p: Addr ensures p in next <==> p >= H && p - H in keys + {k} {
      assert p == k + H <==> p >= H && p - H == k;
    }
  }

  lemma HeadedRemove(held: set<Addr>, keys: set<Addr>, p: Addr)
    requires Headed(held, keys) && p >= H
    ensures Headed(held - {p}, keys - {p - H})
  {
    var next := held - {p};
    forall q: Addr ensures q in next <==> q >= H && q - H in keys - {p - H} {
      assert q == p <==> q >= H && q - H == p - H;
    }
  }

  /** Every held pointer's header records the size and stack of the call
      that last returned that pointer. */
  ghost predicate Recorded(held: Heap, idx: Index) {
    forall p :: p in held ==> p >= H && p - H in idx && idx[p - H] == held[p]
  }

  /** The index holds exactly the headers of the pointers the program holds
      (a pointer is held exactly when it has a header address that is a
      key), and each such header records that pointer's size and stack. */
  ghost predicate Tracks(t: Tracker, held: Heap) {
    Headed(held.Keys, t.index.Keys) && Recorded(held, t.index)
  }

  /** A tracked index has one entry per held pointer. */
  lemma TracksCount(t: Tracker, held: Heap)
    requires Tracks(t, held)
    ensures |held| == |t.index|
  {
    assert held.Keys == Payloads(t.index.Keys) by {
      forall p: Addr | p in held ensures p in Payloads(t.index.Keys) {
        assert p - H in t.index.Keys && (p - H) + H == p;
      }
    }
    PayloadsCard(t.index.Keys);
  }

  /** free and realloc abort exactly on a non-null pointer the program does
      not hold: a double free, a stale pointer after realloc, or a pointer
      this allocator never returned. */
  lemma UnheldPointerAborts(t: Tracker, held: Heap, ptr: Addr, size: Size, base: Addr, chain: seq<Addr>)
    requires Tracks(t, held)
    ensures FreeHook(t, ptr).Abort? <==> ptr != NULL && ptr !in held
    ensures ptr != NULL && ptr !in held ==> ReallocHook(t, ptr, size, base, chain) == Abort(UntrackedPointer)
  {
  }

  /** The key change of any completed call matches the change in the
      program's view, whatever the call. */
  lemma HeadedAfter(held: Heap, before: set<Addr>, c: Call, o: Outcome)
    requires o.Done? && Headed(held.Keys, before) && KeysAfter(before, c, o)
    ensures Headed(Observe(held, c, o.ret).Keys, o.tracker.index.Keys)
  {
    var now := held.Keys;
    match c
    case Malloc(_, base, _) =>
      assert Observe(held, c, o.ret).Keys == now + {base + H};
      HeadedAdd(now, before, base);
    case Realloc(ptr, _, base, _) =>
      if ptr == NULL {
        assert Observe(held, c, o.ret).Keys == now + {base + H};
        HeadedAdd(now, before, base);
      } else {
        assert Observe(held, c, o.ret).Keys == now - {ptr} + {base + H};
        HeadedRemove(now, before, ptr);
        HeadedAdd(now - {ptr}, before - {ptr - H}, base);
      }
    case Free(ptr) =>
      if ptr == NULL {
        assert Observe(held, c, o.ret).Keys == now;
      } else {
        assert Observe(held, c, o.ret).Keys == now - {ptr};
        HeadedRemove(now, before, ptr);
      }
  }

  /** The record kept for each pointer still held after a completed call
      is the size and stack of the call that last returned that pointer. */
  lemma RecordedAfter(held: Heap, before: Index, c: Call, o: Outcome)
    requires o.Done? && Recorded(held, before)
    requires KeysAfter(before.Keys, c, o) && EntriesAfter(before, c, o)
    ensures Recorded(Observe(held, c, o.ret), o.tracker.index)
  {
    var next, after := Observe(held, c, o.ret), o.tracker.index;
    forall p | p in next ensures p >= H && p - H in after && after[p - H] == next[p] {
      if p != o.ret || c.Free? {
        assert p in held && p - H in before;
      }
    }
  }

  /** Each completed call keeps the index in step with the program's view. */
  lemma StepTracks(t: Tracker, held: Heap, c: Call)
    requires Tracks(t, held)
    requires Step(t, c).Done?
    ensures Tracks(Step(t, c).tracker, Observe(held, c, Step(t, c).ret))
  {
    StepKeys(t, c);
    HeadedAfter(held, t.index.Keys, c, Step(t, c));
    StepEntries(t, c);
    RecordedAfter(held, t.index, c, Step(t, c));
  }

  /** Balance: after any run that completes, the index holds exactly the
      headers of the pointers the program still holds, each recording the
      size and stack of the call that last returned its pointer, and the
      switch is still armed. */
  lemma {:induction false} Balance(t: Tracker, held: Heap, calls: seq<Call>)
    requires Tracks(t, held) && Armed(t.hooks)
    requires RunCalls(t, calls).Finished?
    ensures Tracks(RunCalls(t, calls).tracker, Held(held, calls, RunCalls(t, calls).rets))
    ensures RunCalls(t, calls).tracker.hooks == t.hooks
    decreases |calls|
  {
    if calls != [] {
      var o := Step(t, calls[0]);
      StepTracks(t, held, calls[0]);
      Balance(o.tracker, Observe(held, calls[0], o.ret), calls[1..]);
    }
  }

  /** A run whose program ends up holding nothing leaves an empty index. */
  lemma EmptyRunLeavesEmptyIndex(t: Tracker)
    requires Tracks(t, map[])
    ensures |t.index| == 0
  {
    TracksCount(t, map[]);
  }

  /** An exit report names the pointers in `held`: one block per pointer,
      each at that pointer's header, giving the size the program asked for
      and the frames, from index 2 on, of the stack that asked for it. */
  ghost predicate Reports(held: Heap, report: seq<Leak>) {
    && |report| == |held|
    && (forall p: Addr :: p in held <==> p >= H && p - H in Headers(report))
    && (forall i :: 0 <= i < |report| ==> BlockOf(held, report[i]))
  }

  /** `leak` is the block for a held pointer: its size and shown frames are
      those the program's call recorded. */
  ghost predicate BlockOf(held: Heap, leak: Leak) {
    && leak.header + H in held
    && leak.size == held[leak.header + H].size
    && leak.frames == Shown(held[leak.header + H].trace)
  }

  /** What the exit report of a tracked state says about the pointers the
      program holds. */
  lemma ReportNamesHeld(t: Tracker, held: Heap, report: seq<Leak>)
    requires Tracks(t, held)
    requires Headers(report) == t.index.Keys && |report| == |t.index|
    requires forall i :: 0 <= i < |report| ==> Describes(t.index, report[i])
    ensures Reports(held, report)
  {
    TracksCount(t, held);
    forall i | 0 <= i < |report| ensures BlockOf(held, report[i]) {
      var p := report[i].header + H;
      assert p - H in t.index.Keys;
    }
  }

  /** What a completed run's exit report says, given that print_all
      listed every entry of the final index. */
  lemma FinishedReport(hooks: HookState, calls: seq<Call>, run: Run, report: seq<Leak>)
    requires Bypasses(hooks.current)
    requires run == RunCalls(Init(hooks), calls) && run.Finished?
    requires Headers(report) == run.tracker.index.Keys && |report| == |run.tracker.index|
    requires forall i :: 0 <= i < |report| ==> Describes(run.tracker.index, report[i])
    ensures Reports(Held(map[], calls, run.rets), report)
  {
    var t := Init(hooks);
    InitArms(hooks);
    assert Tracks(t, map[]) by {
      assert t.index.Keys == {};
    }
    Balance(t, map[], calls);
    ReportNamesHeld(run.tracker, Held(map[], calls, run.rets), report);
  }

  /** The whole life of a traced process: memdebug_init, the program's
      calls, then print_all at exit. The report names exactly the headers
      of the pointers the program still holds, each with the size and the
      stack of the call that last returned that pointer, highest header
      first. */
  method Session(hooks: HookState, calls: seq<Call>) returns (run: Run, report: seq<Leak>)
    requires Bypasses(hooks.current)
    ensures run == RunCalls(Init(hooks), calls)
    ensures run.Finished? ==>
              && Reports(Held(map[], calls, run.rets), report)
              && (forall i :: 0 <= i < |report| ==> Describes(run.tracker.index, report[i]))
              && (forall i, j :: 0 <= i < j < |report| ==> report[i].header > report[j].header)
    ensures run.Aborted? ==> report == []
  {
    run := RunCalls(Init(hooks), calls);
    report := [];
    if run.Finished? {
      var off;
      report, off := PrintAll(run.tracker);
      FinishedReport(hooks, calls, run, report);
    }
  }

  /** Scenario: allocate 16 bytes and never free them; the index keeps one
      header, of size 16, at the returned pointer minus H. */
  lemma ScenarioLeak(hooks: HookState, base: Addr, chain: seq<Addr>)
    requires Bypasses(hooks.current) && base != NULL
    ensures var r := RunCalls(Init(hooks), [Malloc(16, base, chain)]);
            && r.Finished?
            && r.rets == [base + H]
            && r.tracker.index.Keys == {base}
            && r.tracker.index[base].size == 16
  {
  }

  /** Scenario: allocate then free; nothing is left. */
  lemma ScenarioFreed(hooks: HookState, base: Addr, chain: seq<Addr>)
    requires Bypasses(hooks.current) && base != NULL
    ensures var r := RunCalls(Init(hooks), [Malloc(16, base, chain), Free(base + H)]);
            r.Finished? && |r.tracker.index| == 0
  {
    var calls := [Malloc(16, base, chain), Free(base + H)];
    var o1 := Step(Init(hooks), calls[0]);
    var o2 := Step(o1.tracker, calls[1]);
    assert o2.Done? && |o2.tracker.index| == 0;
    assert calls[1..][1..] == [];
    assert RunCalls(o1.tracker, calls[1..]) == Finished(o2.tracker, [NULL]);
  }

  /** A call that completes, followed by a run that completes. */
  lemma RunPrepend(t: Tracker, c: Call, rest: seq<Call>)
    requires Step(t, c).Done?
    ensures RunCalls(t, [c] + rest) == match RunCalls(Step(t, c).tracker, rest)
              case Aborted(i, why) => Aborted(i + 1, why)
              case Finished(last, rets) => Finished(last, [Step(t, c).ret] + rets)
  {
    assert ([c] + rest)[0] == c && ([c] + rest)[1..] == rest;
  }

  /** malloc(8) then realloc to 64 at block `b2`: the index holds exactly
      the new block's header. */
  lemma MallocThenRealloc(hooks: HookState, b1: Addr, b2: Addr, chain: seq<Addr>)
    requires Bypasses(hooks.current) && b1 != NULL && b2 != NULL
    ensures var o1 := Step(Init(hooks), Malloc(8, b1, chain));
            && o1.Done?
            && var o2 := Step(o1.tracker, Realloc(b1 + H, 64, b2, chain));
            && o2.Done?
            && o2.tracker.index.Keys == {b2}
  {
    var o1 := MallocHook(Init(hooks), 8, b1, chain);
    assert o1.Done? && o1.tracker.index.Keys == {b1};
    var o2 := ReallocHook(o1.tracker, b1 + H, 64, b2, chain);
    assert Request(64).Some?;
    assert o2.Done?;
    assert o1.tracker.index.Keys - {b1} == {};
    assert Grew(o1.tracker.index - {b1}, o2.tracker.index, b2 + H, 64);
  }

  /** Scenario: allocate 8, reallocate to 64 (perhaps moving the block),
      free the new pointer: nothing is left. */
  lemma ScenarioRealloc(hooks: HookState, b1: Addr, b2: Addr, chain: seq<Addr>)
    requires Bypasses(hooks.current) && b1 != NULL && b2 != NULL
    ensures var r := RunCalls(Init(hooks), [Malloc(8, b1, chain), Realloc(b1 + H, 64, b2, chain), Free(b2 + H)]);
            r.Finished? && |r.tracker.index| == 0
  {
    var c1, c2, c3 := Malloc(8, b1, chain), Realloc(b1 + H, 64, b2, chain), Free(b2 + H);
    MallocThenRealloc(hooks, b1, b2, chain);
    var o1 := Step(Init(hooks), c1);
    var o2 := Step(o1.tracker, c2);
    var o3 := FreeHook(o2.tracker, b2 + H);
    assert o3.Done? && |o3.tracker.index| == 0;
    RunPrepend(o2.tracker, c3, []);
    RunPrepend(o1.tracker, c2, [c3]);
    RunPrepend(Init(hooks), c1, [c2, c3]);
    assert [c1] + ([c2] + [c3]) == [c1, c2, c3];
  }

  /** Scenario: after a realloc that moved the block, freeing the old
      pointer aborts the process at that call. */
  lemma ScenarioStaleFree(hooks: HookState, b1: Addr, b2: Addr, chain: seq<Addr>)
    requires Bypasses(hooks.current) && b1 != NULL && b2 != NULL && b1 != b2
    ensures RunCalls(Init(hooks), [Malloc(8, b1, chain), Realloc(b1 + H, 64, b2, chain), Free(b1 + H)])
            == Aborted(2, UntrackedPointer)
  {
    var c1, c2, c3 := Malloc(8, b1, chain), Realloc(b1 + H, 64, b2, chain), Free(b1 + H);
    MallocThenRealloc(hooks, b1, b2, chain);
    var o1 := Step(Init(hooks), c1);
    var o2 := Step(o1.tracker, c2);
    assert FreeHook(o2.tracker, b1 + H) == Abort(UntrackedPointer);
    assert RunCalls(o2.tracker, [c3]) == Aborted(0, UntrackedPointer);
    RunPrepend(o1.tracker, c2, [c3]);
    RunPrepend(Init(hooks), c1, [c2, c3]);
    assert [c1] + ([c2] + [c3]) == [c1, c2, c3];
  }

  /** Scenario: realloc(NULL, 32) adds one header of size 32 and removes
      nothing, exactly as malloc(32) would. */
  lemma ScenarioReallocNull(t: Tracker, base: Addr, chain: seq<Addr>)
    requires base != NULL && base !in t.index
    ensures var o := ReallocHook(t, NULL, 32, base, chain);
            && o == MallocHook(t, 32, base, chain)
            && o.Done?
            && o.tracker.index.Keys == t.index.Keys + {base}
            && o.tracker.index[base].size == 32
  {
  }
}

=== FILE: leak_tracker.dfy ===
/** memleak.c's interceptors, exit report and initialisation as transitions
    of the tracker state: the allocation index plus the hook switch. The
    real allocator's answer (a block base address) and the call chain seen
    by backtrace() are parameters of each call. A failed assert aborts the
    process and is an `Abort` outcome. */
module LeakTracker {
  import opened Machine
  import opened Hooks
  import opened Backtrace
  import opened LeakIndex

  datatype Tracker = Tracker(index: Index, hooks: HookState)

  /** Why an intercepted call aborts the process. */
  datatype Fatal =
    | UntrackedPointer   // assert(a) after RB_FIND: double free, or a pointer this allocator never returned
    | DuplicateAddress   // assert(RB_INSERT(...) == 0): the real allocator handed out a tracked block again
    | OutOfMemory        // the real allocator cannot serve the header-inflated request

  /** What a hook asks of the real allocator, in bytes of the header-inclusive
      block: a malloc, a realloc of the block at `block`, a free of it, or
      nothing (free(NULL)). */
  datatype Asked =
    | AskMalloc(bytes: nat)
    | AskRealloc(block: Addr, bytes: nat)
    | AskFree(block: Addr)
    | AskNothing

  /** A completed call: new state, the pointer handed to the caller (NULL
      for free, which returns nothing), the hook table live while the
      call's body ran and the real allocator call it made. */
  datatype Outcome =
    | Done(tracker: Tracker, ret: Addr, during: Table, asked: Asked)
    | Abort(reason: Fatal)

  /** Bytes asked of the real allocator as the source computes them:
      `size + sizeof(allocation_t)` in size_t arithmetic, which wraps. */
  function RequestAsWritten(size: Size): nat {
    (size + H) % WORD
  }

  /** For sizes close to SIZE_MAX the wrapped request is smaller than the
      header alone, so the header written at the start of the block and the
      payload both lie past its end. */
  lemma RequestWrapsBelowHeader()
    ensures var size: Size := SIZE_MAX - H + 1;
            RequestAsWritten(size) < H && RequestAsWritten(size) < size
  {
  }

  /** The header-inflated request with the overflow refused: None when
      `size + H` does not fit in a size_t, which the model treats like any
      other failure of the real allocator. */
  function Request(size: Size): (r: Option<Size>)
    ensures r.Some? ==> r.value == size + H && r.value >= H
    ensures r.None? <==> size + H > SIZE_MAX
    ensures r.Some? ==> r.value == RequestAsWritten(size)
  {
    if size + H <= SIZE_MAX then Some(size + H) else None
  }

  /** The entry `malloc_hook` and `realloc_hook` put in the index. */
  function Fresh(size: Size, chain: seq<Addr>): Record {
    Record(size, Capture(chain, LEAK_DEPTH))
  }

  /** `after` is `before` with exactly one more entry, at the header of the
      returned pointer `ret`, holding `size` and at most LEAK_DEPTH frames. */
  ghost predicate Grew(before: Index, after: Index, ret: Addr, size: Size) {
    && ret >= H
    && ret - H !in before
    && ret - H in after
    && after[ret - H].size == size
    && |after[ret - H].trace| <= LEAK_DEPTH
    && after.Keys == before.Keys + {ret - H}
    && |after| == |before| + 1
    && (forall k :: k in before ==> after[k] == before[k])
  }

  /** malloc_hook(size): one real malloc of size + H, a header recording
      `size` and a fresh trace inserted at the block base, base + H returned. */
  function MallocHook(t: Tracker, size: Size, base: Addr, chain: seq<Addr>): (o: Outcome)
    ensures o.Abort? <==> Request(size).None? || base == NULL || base in t.index
    ensures o.Abort? ==> o.reason == OutOfMemory || o.reason == DuplicateAddress
    ensures o.Done? ==> o.ret == base + H && Grew(t.index, o.tracker.index, o.ret, size)
    ensures o.Done? ==> base in o.tracker.index && o.tracker.index[base] == Fresh(size, chain)
    ensures o.Done? ==> o.asked == AskMalloc(size + H)
    ensures o.Done? ==> Restored(t.hooks, o.during, o.tracker.hooks)
  {
    var b := Around(t.hooks);
    if Request(size).None? || base == NULL then Abort(OutOfMemory)
    else match Insert(t.index, base, Fresh(size, chain))
      case None => Abort(DuplicateAddress)
      case Some(idx) => Done(Tracker(idx, b.after), base + H, b.during, AskMalloc(Request(size).value))
  }

  /** realloc_hook(ptr, size): for a non-null `ptr` the header at ptr - H
      is found and removed (fatal when absent), the real realloc resizes
      the header-inclusive block, possibly moving it to `base`; for NULL a
      fresh real malloc is made. Either way a new header is inserted at
      `base` and base + H is returned. */
  function ReallocHook(t: Tracker, ptr: Addr, size: Size, base: Addr, chain: seq<Addr>): (o: Outcome)
    ensures ptr == NULL ==> o == MallocHook(t, size, base, chain)
    ensures ptr != NULL && (ptr < H || ptr - H !in t.index) ==> o == Abort(UntrackedPointer)
    ensures ptr != NULL && ptr >= H && ptr - H in t.index ==>
              (o.Abort? <==> Request(size).None? || base == NULL || (base in t.index && base != ptr - H))
    ensures o.Done? && ptr != NULL ==>
              && o.ret == base + H
              && Grew(t.index - {ptr - H}, o.tracker.index, o.ret, size)
              && |o.tracker.index| == |t.index|
    ensures o.Done? && ptr != NULL ==> ptr >= H && o.tracker.index.Keys == t.index.Keys - {ptr - H} + {base}
    ensures o.Done? ==> base in o.tracker.index && o.tracker.index[base] == Fresh(size, chain)
    ensures o.Done? && ptr != NULL ==> o.asked == AskRealloc(ptr - H, size + H)
    ensures o.Done? ==> forall k :: k in t.index && k != ptr - H ==> k in o.tracker.index && o.tracker.index[k] == t.index[k]
    ensures o.Done? ==> Restored(t.hooks, o.during, o.tracker.hooks)
  {
    var b := Around(t.hooks);
    var kept := if ptr == NULL then Some(t.index)
                else match HeaderOf(ptr)
                  case None => None
                  case Some(h) => Remove(t.index, h);
    if kept.None? then Abort(UntrackedPointer)
    else if Request(size).None? || base == NULL then Abort(OutOfMemory)
    else
      var asked := if ptr == NULL then AskMalloc(Request(size).value) else AskRealloc(ptr - H, Request(size).value);
      match Insert(kept.value, base, Fresh(size, chain))
      case None => Abort(DuplicateAddress)
      case Some(idx) => Done(Tracker(idx, b.after), base + H, b.during, asked)
  }

  /** free_hook(ptr): NULL is ignored; otherwise the header at ptr - H is
      found and removed (fatal when absent) and the block released. */
  function FreeHook(t: Tracker, ptr: Addr): (o: Outcome)
    ensures ptr == NULL ==> o.Done? && o.tracker.index == t.index && o.asked == AskNothing
    ensures ptr != NULL ==> (o.Abort? <==> ptr < H || ptr - H !in t.index)
    ensures o.Abort? ==> o.reason == UntrackedPointer
    ensures o.Done? && ptr != NULL ==>
              && ptr >= H
              && o.tracker.index.Keys == t.index.Keys - {ptr - H}
              && |o.tracker.index| == |t.index| - 1
              && (forall k :: k in o.tracker.index ==> o.tracker.index[k] == t.index[k])
              && o.asked == AskFree(ptr - H)
    ensures o.Done? ==> o.ret == NULL && Restored(t.hooks, o.during, o.tracker.hooks)
  {
    var b := Around(t.hooks);
    if ptr == NULL then Done(Tracker(t.index, b.after), NULL, b.during, AskNothing)
    else match HeaderOf(ptr)
      case None => Abort(UntrackedPointer)
      case Some(h) =>
        match Remove(t.index, h)
        case None => Abort(UntrackedPointer)
        case Some(idx) => Done(Tracker(idx, b.after), NULL, b.during, AskFree(h))
  }

  /** Freeing a pointer a second time is fatal: the first free removed its
      header. */
  lemma DoubleFreeAborts(t: Tracker, ptr: Addr)
    requires ptr != NULL
    requires FreeHook(t, ptr).Done?
    ensures FreeHook(FreeHook(t, ptr).tracker, ptr) == Abort(UntrackedPointer)
  {
  }

  /** memdebug_init: an empty tree and one hook(). From hooks that are not
      the interceptor's, the result is armed. */
  function Init(hooks: HookState): (t: Tracker)
    ensures t.index == map[]
    ensures Armed(t.hooks) <==> Bypasses(hooks.current)
    ensures t.hooks.saved == hooks.current
  {
    Tracker(map[], Hook(hooks))
  }

  /** One block of the exit report: the header address printed by %p, the
      recorded size and the trace frames that are printed (index 2 on). */
  datatype Leak = Leak(header: Addr, size: Size, frames: seq<Addr>)

  /** RB_MIN: the entry that compares least under compare_allocations,
      which is the highest header address. */
  method TreeMin(keys: set<Addr>) returns (m: Addr)
    requires keys != {}
    ensures m in keys
    ensures forall k :: k in keys && k != m ==> Before(m, k)
  {
    m :| m in keys;
    var rest := keys - {m};
    while rest != {}
      invariant rest <= keys && m in keys && m !in rest
      invariant forall k :: k in keys && k !in rest && k != m ==> Before(m, k)
      decreases rest
    {
      var k :| k in rest;
      if Before(k, m) {
        m := k;
      }
      rest := rest - {k};
    }
  }

  /** The header addresses a report names. */
  function Headers(report: seq<Leak>): set<Addr> {
    if report == [] then {} else Headers(report[..|report| - 1]) + {report[|report| - 1].header}
  }

  /** `leak` is the block print_all prints for an entry of `idx`. */
  ghost predicate Describes(idx: Index, leak: Leak) {
    && leak.header in idx
    && leak.size == idx[leak.header].size
    && leak.frames == Shown(idx[leak.header].trace)
  }

  /** print_all: unhook() for good, then one block per index entry, walking
      the tree from RB_MIN with RB_NEXT. The index is only read. */
  method PrintAll(t: Tracker) returns (report: seq<Leak>, hooks: HookState)
    ensures hooks == Unhook(t.hooks)
    ensures Armed(t.hooks) ==> Bypasses(hooks.current)
    ensures |report| == |t.index|
    ensures Headers(report) == t.index.Keys
    ensures forall i :: 0 <= i < |report| ==> Describes(t.index, report[i])
    ensures forall i, j :: 0 <= i < j < |report| ==> Before(report[i].header, report[j].header)
  {
    hooks := Unhook(t.hooks);
    report := [];
    var rest := t.index.Keys;
    while rest != {}
      invariant rest <= t.index.Keys
      invariant |report| + |rest| == |t.index|
      invariant Headers(report) == t.index.Keys - rest
      invariant forall i :: 0 <= i < |report| ==> Describes(t.index, report[i])
      invariant forall i, j :: 0 <= i < j < |report| ==> Before(report[i].header, report[j].header)
      invariant forall i, k :: 0 <= i < |report| && k in rest ==> Before(report[i].header, k)
      decreases rest
    {
      var a := TreeMin(rest);
      var rec := t.index[a];
      var leak := Leak(a, rec.size, Shown(rec.trace));
      assert (report + [leak])[..|report|] == report;
      report := report + [leak];
      rest := rest - {a};
    }
  }
}

=== FILE: log_analyser.dfy ===
/** memlog.js: replays the text written by memlog.so into a map from printed
    pointer to trace text, then prints one block per surviving key. The
    file has already been read and split at '\n': the input is its lines.

    `Mode` selects how a record is replayed: `AsWritten` is the script's
    switch, which for "r" deletes field 2 and then falls through to the "m"
    case and stores the trace under field 1; `Corrected` deletes field 1
    (the old pointer) of an "r" record and stores the trace under field 2
    (the new one), and stores no trace under a result printed "(nil)": a
    failed malloc, or a realloc that released its block. */
module LogAnalyser {
  import opened Machine

  /** JavaScript's `[].join(sep)`. */
  function Join(parts: seq<string>, sep: string): string
    decreases |parts|
  {
    if |parts| == 0 then ""
    else if |parts| == 1 then parts[0]
    else parts[0] + sep + Join(parts[1..], sep)
  }

  /** JavaScript's `s.split(sep)` for a one-character separator: the pieces
      between separators, empty ones included. */
  function Split(s: string, sep: char): (parts: seq<string>)
    ensures |parts| >= 1
    ensures forall i :: 0 <= i < |parts| ==> sep !in parts[i]
    ensures Join(parts, [sep]) == s
    decreases |s|
  {
    if |s| == 0 then [""]
    else
      var rest := Split(s[1..], sep);
      if s[0] == sep then
        assert s == [sep] + s[1..];
        [""] + rest
      else
        var head := [s[0]] + rest[0];
        assert |rest| > 1 ==> Join(rest, [sep]) == rest[0] + [sep] + Join(rest[1..], [sep]);
        assert |rest| > 1 ==> Join([head] + rest[1..], [sep]) == head + [sep] + Join(rest[1..], [sep]) by {
          assert ([head] + rest[1..])[1..] == rest[1..];
        }
        assert s == [s[0]] + s[1..];
        [head] + rest[1..]
  }

  lemma {:induction false} SplitWithoutSeparator(s: string, sep: char)
    requires sep !in s
    ensures Split(s, sep) == [s]
    decreases |s|
  {
    if |s| > 0 {
      SplitWithoutSeparator(s[1..], sep);
      assert [s[0]] + s[1..] == s;
    }
  }

  /** Splitting at the first separator. */
  lemma {:induction false} SplitAtFirst(a: string, b: string, sep: char)
    requires sep !in a
    ensures Split(a + [sep] + b, sep) == [a] + Split(b, sep)
    decreases |a|
  {
    var s := a + [sep] + b;
    if |a| == 0 {
      assert s[0] == sep && s[1..] == b;
    } else {
      assert s[0] == a[0] && s[1..] == a[1..] + [sep] + b;
      SplitAtFirst(a[1..], b, sep);
      assert [a[0]] + a[1..] == a;
    }
  }

  /** `line[k]`: a missing field reads as `undefined`, which becomes the
      key "undefined" when used to index an object. */
  function Field(fields: seq<string>, k: nat): string {
    if k < |fields| then fields[k] else "undefined"
  }

  /** The record tags the script recognises. */
  predicate IsTag(s: string) {
    s == "m" || s == "r" || s == "f"
  }

  /** The first space-separated field of `line` is a record tag. */
  predicate IsRecord(line: string) {
    IsTag(Field(Split(line, ' '), 0))
  }

  datatype Mode = AsWritten | Corrected

  /** `mem` and `next` agree on key `k`. */
  ghost predicate SameAt(mem: map<string, string>, next: map<string, string>, k: string) {
    (k in mem <==> k in next) && (k in mem ==> mem[k] == next[k])
  }

  /** The one key the script's `mem = {}` cannot hold: `mem["__proto__"] = v`
      goes to the prototype setter, which ignores a string value, and
      `delete mem["__proto__"]` finds no own property to remove. */
  const ProtoKey: string := "__proto__"

  /** `mem[k] = v` on a plain object. */
  function Put(mem: map<string, string>, k: string, v: string): map<string, string> {
    if k == ProtoKey then mem else mem[k := v]
  }

  /** `delete mem[k]` on a plain object. */
  function Delete(mem: map<string, string>, k: string): map<string, string> {
    if k == ProtoKey then mem else mem - {k}
  }

  /** How %p prints the null pointer. */
  const NilText: string := "(nil)"

  /** The corrected store of a call's result: none when the call returned
      NULL. */
  function PutResult(mem: map<string, string>, k: string, v: string): map<string, string> {
    if k == NilText then mem else Put(mem, k, v)
  }

  /** The switch on `line[0]` for one record, its trace already joined. */
  function Apply(mode: Mode, fields: seq<string>, trace: string, mem: map<string, string>): (next: map<string, string>)
    ensures SameAt(mem, next, ProtoKey)
    ensures Field(fields, 0) == "m" && (mode == AsWritten || Field(fields, 1) != NilText) ==>
              && (Field(fields, 1) != ProtoKey ==> Field(fields, 1) in next && next[Field(fields, 1)] == trace)
              && forall k :: k != Field(fields, 1) ==> SameAt(mem, next, k)
    ensures Field(fields, 0) == "m" && mode == Corrected && Field(fields, 1) == NilText ==> next == mem
    ensures Field(fields, 0) == "f" ==>
              && (Field(fields, 1) != ProtoKey ==> Field(fields, 1) !in next)
              && forall k :: k != Field(fields, 1) ==> SameAt(mem, next, k)
    ensures Field(fields, 0) == "r" && mode == AsWritten ==>
              && (Field(fields, 1) != ProtoKey ==> Field(fields, 1) in next && next[Field(fields, 1)] == trace)
              && (Field(fields, 2) != Field(fields, 1) && Field(fields, 2) != ProtoKey ==> Field(fields, 2) !in next)
              && forall k :: k != Field(fields, 1) && k != Field(fields, 2) ==> SameAt(mem, next, k)
    ensures Field(fields, 0) == "r" && mode == Corrected ==>
              && (Field(fields, 2) != ProtoKey && Field(fields, 2) != NilText ==> Field(fields, 2) in next && next[Field(fields, 2)] == trace)
              && (Field(fields, 2) == NilText && Field(fields, 1) != NilText ==> SameAt(mem, next, NilText))
              && (Field(fields, 1) != Field(fields, 2) && Field(fields, 1) != ProtoKey ==> Field(fields, 1) !in next)
              && forall k :: k != Field(fields, 1) && k != Field(fields, 2) ==> SameAt(mem, next, k)
    ensures !IsTag(Field(fields, 0)) ==> next == mem
  {
    var tag, p1, p2 := Field(fields, 0), Field(fields, 1), Field(fields, 2);
    if tag == "r" then
      match mode
      case AsWritten => Put(Delete(mem, p2), p1, trace)
      case Corrected => PutResult(Delete(mem, p1), p2, trace)
    else if tag == "m" then
      match mode
      case AsWritten => Put(mem, p1, trace)
      case Corrected => PutResult(mem, p1, trace)
    else if tag == "f" then Delete(mem, p1)
    else mem
  }

  /** A record "m __proto__ ..." changes nothing: the script's object will
      not take that key, so however its trace reads, `mem` is unchanged. */
  lemma ProtoRecordIgnored(mode: Mode, p2: string, trace: seq<string>, mem: map<string, string>)
    requires ' ' !in p2
    requires forall i :: 0 <= i < |trace| ==> trace[i] != ""
    ensures Replay(mode, ["m" + [' '] + (ProtoKey + [' '] + p2)] + trace + [""], mem) == Finished(mem)
  {
    var line := "m" + [' '] + (ProtoKey + [' '] + p2);
    SplitAtFirst("m", ProtoKey + [' '] + p2, ' ');
    SplitAtFirst(ProtoKey, p2, ' ');
    SplitWithoutSeparator(p2, ' ');
    var fields := Split(line, ' ');
    assert fields == ["m", ProtoKey, p2];
    assert Field(fields, 0) == "m" && Field(fields, 1) == ProtoKey;
    RecordTakesTraceToBlank(mode, line, trace, [], mem);
    assert [line] + trace + [""] + [] == [line] + trace + [""];
  }

  /** Index of the first empty line at or after `k`: where the inner
      `while (log[++i] != '')` stops. */
  function NextBlank(log: seq<string>, k: nat): (r: Option<nat>)
    ensures r.Some? ==> k <= r.value < |log| && log[r.value] == ""
    ensures r.Some? ==> forall i :: k <= i < r.value ==> log[i] != ""
    ensures r.None? ==> forall i :: k <= i < |log| ==> log[i] != ""
    decreases |log| - k
  {
    if k >= |log| then None
    else if log[k] == "" then Some(k)
    else NextBlank(log, k + 1)
  }

  /** The outcome of the main loop: the final `mem`, or no outcome at all
      when a record has no empty line after it (the inner loop then reads
      `undefined` forever). */
  datatype Replayed = Finished(mem: map<string, string>) | Diverges

  /** The main loop as a fold over the remaining lines. */
  function Replay(mode: Mode, log: seq<string>, mem: map<string, string>): Replayed
    decreases |log|
  {
    if |log| == 0 then Finished(mem)
    else
      if !IsRecord(log[0]) then Replay(mode, log[1..], mem)
      else match NextBlank(log, 1)
        case None => Diverges
        case Some(j) => Replay(mode, log[j + 1..], Apply(mode, Split(log[0], ' '), Join(log[1..j], "\n"), mem))
  }

  /** A line that is not a record is skipped and leaves `mem` alone. */
  lemma SkipsNonRecord(mode: Mode, line: string, rest: seq<string>, mem: map<string, string>)
    requires !IsRecord(line)
    ensures Replay(mode, [line] + rest, mem) == Replay(mode, rest, mem)
  {
    assert ([line] + rest)[1..] == rest;
  }

  /** A record consumes the lines up to the next empty one as its trace and
      scanning resumes after that empty line. */
  lemma RecordTakesTraceToBlank(mode: Mode, line: string, trace: seq<string>, rest: seq<string>, mem: map<string, string>)
    requires IsRecord(line)
    requires forall i :: 0 <= i < |trace| ==> trace[i] != ""
    ensures Replay(mode, [line] + trace + [""] + rest, mem)
            == Replay(mode, rest, Apply(mode, Split(line, ' '), Join(trace, "\n"), mem))
  {
    var log := [line] + trace + [""] + rest;
    TraceThenBlank(line, trace, rest);
    assert Replay(mode, log, mem)
        == Replay(mode, log[|trace| + 2..], Apply(mode, Split(line, ' '), Join(log[1..|trace| + 1], "\n"), mem));
  }

  lemma TraceThenBlank(line: string, trace: seq<string>, rest: seq<string>)
    requires forall i :: 0 <= i < |trace| ==> trace[i] != ""
    ensures var log := [line] + trace + [""] + rest;
            && log[0] == line
            && NextBlank(log, 1) == Some(|trace| + 1)
            && log[1..|trace| + 1] == trace
            && log[|trace| + 2..] == rest
  {
    var log := [line] + trace + [""] + rest;
    assert forall i :: 1 <= i < |trace| + 1 ==> log[i] == trace[i - 1];
    NextBlankIs(log, 1, |trace| + 1);
    assert log[1..|trace| + 1] == trace;
    assert log[|trace| + 2..] == rest;
  }

  /** A record with no empty line after it never finishes. */
  lemma RecordWithoutBlankDiverges(mode: Mode, line: string, trace: seq<string>, mem: map<string, string>)
    requires IsRecord(line)
    requires forall i :: 0 <= i < |trace| ==> trace[i] != ""
    ensures Replay(mode, [line] + trace, mem) == Diverges
  {
    var log := [line] + trace;
    assert forall i :: 1 <= i < |log| ==> log[i] == trace[i - 1];
  }

  lemma {:induction false} NextBlankIs(log: seq<string>, k: nat, j: nat)
    requires k <= j < |log| && log[j] == ""
    requires forall i :: k <= i < j ==> log[i] != ""
    ensures NextBlank(log, k) == Some(j)
    decreases j - k
  {
    if k < j {
      NextBlankIs(log, k + 1, j);
    }
  }

  /** The inner `while (log[++i] != '')`: the lines after `start` up to the
      first empty one, and where it stopped (|log| when there is none). */
  method CollectTrace(log: seq<string>, start: nat) returns (trace: seq<string>, stop: nat)
    requires start < |log|
    ensures start < stop <= |log|
    ensures trace == log[start + 1..stop]
    ensures forall k :: start < k < stop ==> log[k] != ""
    ensures stop < |log| ==> log[stop] == ""
  {
    trace := [];
    stop := start + 1;
    while stop < |log| && log[stop] != ""
      invariant start < stop <= |log|
      invariant trace == log[start + 1..stop]
      invariant forall k :: start < k < stop ==> log[k] != ""
      decreases |log| - stop
    {
      trace := trace + [log[stop]];
      stop := stop + 1;
    }
  }

  /** The replay of the lines from `i` on, when line `i` is not a record. */
  lemma ReplaySkipAt(mode: Mode, log: seq<string>, i: nat, mem: map<string, string>)
    requires i < |log| && !IsRecord(log[i])
    ensures Replay(mode, log[i..], mem) == Replay(mode, log[i + 1..], mem)
  {
    assert log[i..] == [log[i]] + log[i + 1..];
    SkipsNonRecord(mode, log[i], log[i + 1..], mem);
  }

  /** The replay of the lines from `i` on, when line `i` is a record whose
      trace ends at the empty line `stop`. */
  lemma ReplayRecordAt(mode: Mode, log: seq<string>, i: nat, stop: nat, mem: map<string, string>)
    requires i < stop < |log| && IsRecord(log[i]) && log[stop] == ""
    requires forall k :: i < k < stop ==> log[k] != ""
    ensures Replay(mode, log[i..], mem)
            == Replay(mode, log[stop + 1..], Apply(mode, Split(log[i], ' '), Join(log[i + 1..stop], "\n"), mem))
  {
    var trace := log[i + 1..stop];
    assert log[i..] == [log[i]] + trace + [""] + log[stop + 1..];
    RecordTakesTraceToBlank(mode, log[i], trace, log[stop + 1..], mem);
  }

  /** The replay of the lines from `i` on, when line `i` is a record with no
      empty line after it. */
  lemma ReplayDivergesAt(mode: Mode, log: seq<string>, i: nat, mem: map<string, string>)
    requires i < |log| && IsRecord(log[i])
    requires forall k :: i < k < |log| ==> log[k] != ""
    ensures Replay(mode, log[i..], mem) == Diverges
  {
    var trace := log[i + 1..];
    assert log[i..] == [log[i]] + trace;
    RecordWithoutBlankDiverges(mode, log[i], trace, mem);
  }

  /** Lines after a log whose replay finishes are replayed from the map it
      finished with. */
  lemma {:induction false} ReplayAppend(mode: Mode, log: seq<string>, extra: seq<string>, mem: map<string, string>)
    requires Replay(mode, log, mem).Finished?
    ensures Replay(mode, log + extra, mem) == Replay(mode, extra, Replay(mode, log, mem).mem)
    decreases |log|
  {
    var whole := log + extra;
    if |log| == 0 {
      assert whole == extra;
    } else if !IsRecord(log[0]) {
      assert whole[0] == log[0] && whole[1..] == log[1..] + extra;
      ReplayAppend(mode, log[1..], extra, mem);
    } else {
      var j := NextBlank(log, 1).value;
      assert whole[0] == log[0];
      NextBlankIs(whole, 1, j);
      assert whole[1..j] == log[1..j];
      assert whole[j + 1..] == log[j + 1..] + extra;
      ReplayAppend(mode, log[j + 1..], extra, Apply(mode, Split(log[0], ' '), Join(log[1..j], "\n"), mem));
    }
  }

  /** The empty string `split('\n')` leaves after a final newline is not a
      record, so a log that finishes finishes the same with it. */
  lemma TrailingBlankIgnored(mode: Mode, log: seq<string>, mem: map<string, string>)
    requires Replay(mode, log, mem).Finished?
    ensures Replay(mode, log + [""], mem) == Replay(mode, log, mem)
  {
    ReplayAppend(mode, log, [""], mem);
    assert Split("", ' ') == [""];
    assert !IsRecord("");
    assert [""][1..] == [];
  }

  /** The script's loops over line indices, as written: the outer `for`
      over `i`, and for each record the inner loop collecting its trace. */
  method Analyse(mode: Mode, log: seq<string>) returns (r: Replayed)
    ensures r == Replay(mode, log, map[])
  {
    var mem: map<string, string> := map[];
    var i := 0;
    assert log[0..] == log;
    while i < |log|
      invariant 0 <= i <= |log|
      invariant Replay(mode, log[i..], mem) == Replay(mode, log, map[])
      decreases |log| - i
    {
      if !IsRecord(log[i]) {
        ReplaySkipAt(mode, log, i, mem);
        i := i + 1;
      } else {
        var trace, stop := CollectTrace(log, i);
        if stop == |log| {
          ReplayDivergesAt(mode, log, i, mem);
          return Diverges;
        }
        ReplayRecordAt(mode, log, i, stop, mem);
        mem := Apply(mode, Split(log[i], ' '), Join(trace, "\n"), mem);
        i := stop + 1;
      }
    }
    assert log[i..] == [];
    r := Finished(mem);
  }

  /** The block printed for one surviving key: `p + '\n' + mem[p] + '\n\n'`
      (console.log adds the final newline). */
  function DumpBlock(key: string, trace: string): string {
    key + "\n" + trace + "\n\n"
  }

  /** The final `for (var p in mem)`: one block per key, each key once.
      JavaScript enumerates keys in insertion order; the map does not keep
      it, so the order here is left open. */
  method Dump(mem: map<string, string>) returns (keys: seq<string>, blocks: seq<string>)
    ensures |keys| == |blocks| == |mem|
    ensures forall k :: k in mem <==> k in keys
    ensures forall i, j :: 0 <= i < j < |keys| ==> keys[i] != keys[j]
    ensures forall i :: 0 <= i < |keys| ==> keys[i] in mem && blocks[i] == DumpBlock(keys[i], mem[keys[i]])
  {
    keys, blocks := [], [];
    var rest := mem.Keys;
    while rest != {}
      invariant rest <= mem.Keys
      invariant |keys| == |blocks| && |keys| + |rest| == |mem|
      invariant forall k :: k in mem ==> (k in keys <==> k !in rest)
      invariant forall i, j :: 0 <= i < j < |keys| ==> keys[i] != keys[j]
      invariant forall i :: 0 <= i < |keys| ==> keys[i] in mem && blocks[i] == DumpBlock(keys[i], mem[keys[i]])
      decreases rest
    {
      var p :| p in rest;
      keys := keys + [p];
      blocks := blocks + [DumpBlock(p, mem[p])];
      rest := rest - {p};
    }
  }
}

=== FILE: log_pairing.dfy ===
/** What memlog.so writes for its events, and what memlog.js makes of it:
    the analyser, run over the text of any event sequence, computes the same
    map as a replay of the events themselves. Through that pairing, the
    analyser's treatment of "r" records can be stated against the pointers a
    program actually holds. */
module LogPairing {
  import opened Machine
  import opened PointerText
  import opened MemLogger
  import opened LogAnalyser

  function TagText(tag: Tag): string {
    match tag
    case TagM => "m"
    case TagR => "r"
    case TagF => "f"
  }

  /** fprintf(stderr, "%s %p %p\n", f, p1, p2). */
  function HeaderLine(e: Event): string {
    TagText(e.tag) + " " + PtrText(e.p1) + " " + PtrText(e.p2)
  }

  /** One line of backtrace_symbols_fd output. The symboliser is glibc's;
      the model stands in a non-empty line naming the frame's address. */
  function SymbolLine(a: Addr): string {
    "[" + PtrText(a) + "]"
  }

  function SymbolLines(frames: seq<Addr>): (lines: seq<string>)
    ensures |lines| == |frames|
    ensures forall i :: 0 <= i < |lines| ==> lines[i] == SymbolLine(frames[i])
  {
    seq(|frames|, i requires 0 <= i < |frames| => SymbolLine(frames[i]))
  }

  /** The lines one print_function call writes: the header, the symbol
      lines, then the empty line. */
  function Block(e: Event): seq<string> {
    [HeaderLine(e)] + SymbolLines(e.frames) + [""]
  }

  /** The log memlog.js reads, split into lines. */
  function LogLines(es: seq<Event>): seq<string>
    decreases |es|
  {
    if es == [] then [] else Block(es[0]) + LogLines(es[1..])
  }

  /** The text of `lines` as fprintf and backtrace_symbols_fd write them:
      each line followed by a newline. */
  function Written(lines: seq<string>): string
    decreases |lines|
  {
    if lines == [] then "" else lines[0] + "\n" + Written(lines[1..])
  }

  /** No line holds a newline of its own. */
  predicate OneLineEach(lines: seq<string>) {
    forall i :: 0 <= i < |lines| ==> '\n' !in lines[i]
  }

  /** `split('\n')` of newline-terminated lines gives the lines back, plus
      the empty string after the last newline. */
  lemma {:induction false} SplitWritten(lines: seq<string>)
    requires OneLineEach(lines)
    ensures Split(Written(lines), '\n') == lines + [""]
    decreases |lines|
  {
    if lines != [] {
      SplitAtFirst(lines[0], Written(lines[1..]), '\n');
      SplitWritten(lines[1..]);
      assert [lines[0]] + (lines[1..] + [""]) == lines + [""];
    }
  }

  lemma {:induction false} LogLinesOneLineEach(es: seq<Event>)
    ensures OneLineEach(LogLines(es))
    decreases |es|
  {
    if es != [] {
      var e := es[0];
      LogLinesOneLineEach(es[1..]);
      var b := Block(e);
      assert '\n' !in HeaderLine(e) by {
        assert HeaderLine(e) == TagText(e.tag) + " " + PtrText(e.p1) + " " + PtrText(e.p2);
      }
      forall i | 0 <= i < |b| ensures '\n' !in b[i] {
        if 0 < i < |b| - 1 {
          assert b[i] == SymbolLine(e.frames[i - 1]);
        }
      }
    }
  }

  /** The trace text memlog.js stores for an event. */
  function TraceText(e: Event): string {
    Join(SymbolLines(e.frames), "\n")
  }

  /** One event applied to the map memlog.js builds, computed from the
      event directly: printed pointer |-> trace text. */
  function EventStep(mode: Mode, e: Event, mem: map<string, string>): map<string, string> {
    match e.tag
    case TagM =>
      if mode == Corrected && e.p1 == NULL then mem
      else mem[PtrText(e.p1) := TraceText(e)]
    case TagF => mem - {PtrText(e.p1)}
    case TagR =>
      if mode == AsWritten then (mem - {PtrText(e.p2)})[PtrText(e.p1) := TraceText(e)]
      else if e.p2 == NULL then mem - {PtrText(e.p1)}
      else (mem - {PtrText(e.p1)})[PtrText(e.p2) := TraceText(e)]
  }

  function EventReplay(mode: Mode, es: seq<Event>, mem: map<string, string>): map<string, string>
    decreases |es|
  {
    if es == [] then mem else EventReplay(mode, es[1..], EventStep(mode, es[0], mem))
  }

  lemma HeaderFields(e: Event)
    ensures Split(HeaderLine(e), ' ') == [TagText(e.tag), PtrText(e.p1), PtrText(e.p2)]
  {
    var t, a, b := TagText(e.tag), PtrText(e.p1), PtrText(e.p2);
    assert HeaderLine(e) == t + [' '] + (a + [' '] + b);
    SplitAtFirst(t, a + [' '] + b, ' ');
    SplitAtFirst(a, b, ' ');
    SplitWithoutSeparator(b, ' ');
  }

  /** A printed pointer is never the key the script's object refuses. */
  lemma PrintedIsNotProto(p: Addr)
    ensures PtrText(p) != ProtoKey
  {
    assert PtrText(p)[0] != ProtoKey[0];
  }

  /** A pointer prints as "(nil)" exactly when it is NULL. */
  lemma PrintedNil(p: Addr)
    ensures PtrText(p) == NilText <==> p == NULL
  {
    PtrTextInjective(p, NULL);
  }

  /** Replaying one printed record is replaying its event. */
  lemma BlockReplays(mode: Mode, e: Event, rest: seq<string>, mem: map<string, string>)
    ensures Replay(mode, Block(e) + rest, mem)
            == Replay(mode, rest, EventReplay(mode, [e], mem))
  {
    var lines := SymbolLines(e.frames);
    var fields := Split(HeaderLine(e), ' ');
    HeaderFields(e);
    PrintedIsNotProto(e.p1);
    PrintedIsNotProto(e.p2);
    PrintedNil(e.p1);
    PrintedNil(e.p2);
    assert Block(e) + rest == [HeaderLine(e)] + lines + [""] + rest;
    forall i | 0 <= i < |lines| ensures lines[i] != "" {
      assert |SymbolLine(e.frames[i])| > 0;
    }
    RecordTakesTraceToBlank(mode, HeaderLine(e), lines, rest, mem);
    assert [e][1..] == [];
    assert Field(fields, 0) == TagText(e.tag);
    assert Field(fields, 1) == PtrText(e.p1) && Field(fields, 2) == PtrText(e.p2);
  }

  /** The pairing: memlog.js, run over the text of any event sequence,
      finishes with exactly the map the events' own replay gives. */
  lemma {:induction false} AnalyserReplaysEvents(mode: Mode, es: seq<Event>, mem: map<string, string>)
    ensures Replay(mode, LogLines(es), mem) == Finished(EventReplay(mode, es, mem))
    decreases |es|
  {
    if es != [] {
      BlockReplays(mode, es[0], LogLines(es[1..]), mem);
      AnalyserReplaysEvents(mode, es[1..], EventReplay(mode, [es[0]], mem));
      assert EventReplay(mode, [es[0]], mem) == EventStep(mode, es[0], mem) by {
        assert [es[0]][1..] == [];
      }
    }
  }

  /** The pointers a program holds after a logged run, from the events:
      malloc adds its result, realloc trades its input for its result, free
      gives its argument back. A NULL result is no pointer: the malloc
      failed, or the realloc released its block. */
  function StillHeld(es: seq<Event>, held: set<Addr>): set<Addr>
    decreases |es|
  {
    if es == [] then held
    else
      var e := es[0];
      var next := match e.tag
        case TagM => if e.p1 == NULL then held else held + {e.p1}
        case TagR => if e.p2 == NULL then held - {e.p1} else held - {e.p1} + {e.p2}
        case TagF => held - {e.p1};
      StillHeld(es[1..], next)
  }

  ghost function Printed(ptrs: set<Addr>): set<string> {
    set p | p in ptrs :: PtrText(p)
  }

  lemma PrintedAdd(ptrs: set<Addr>, p: Addr)
    ensures Printed(ptrs + {p}) == Printed(ptrs) + {PtrText(p)}
  {
  }

  lemma PrintedRemove(ptrs: set<Addr>, p: Addr)
    ensures Printed(ptrs - {p}) == Printed(ptrs) - {PtrText(p)}
  {
    forall s | s in Printed(ptrs) - {PtrText(p)} ensures s in Printed(ptrs - {p}) {
      var q :| q in ptrs && PtrText(q) == s;
      PtrTextInjective(p, q);
    }
    forall s | s in Printed(ptrs - {p}) ensures s != PtrText(p) {
      var q :| q in ptrs - {p} && PtrText(q) == s;
      PtrTextInjective(p, q);
    }
  }

  /** With "r" records replayed as the old-to-new move they are, and NULL
      results not stored, the keys left at the end are exactly the printed
      pointers the program holds. */
  lemma {:induction false} CorrectedReportsHeld(es: seq<Event>, held: set<Addr>, mem: map<string, string>)
    requires mem.Keys == Printed(held)
    ensures EventReplay(Corrected, es, mem).Keys == Printed(StillHeld(es, held))
    decreases |es|
  {
    if es != [] {
      var e := es[0];
      var next := EventStep(Corrected, e, mem);
      match e.tag
      case TagM =>
        if e.p1 == NULL {
          CorrectedReportsHeld(es[1..], held, next);
        } else {
          PrintedAdd(held, e.p1);
          CorrectedReportsHeld(es[1..], held + {e.p1}, next);
        }
      case TagF =>
        PrintedRemove(held, e.p1);
        CorrectedReportsHeld(es[1..], held - {e.p1}, next);
      case TagR =>
        PrintedRemove(held, e.p1);
        if e.p2 == NULL {
          CorrectedReportsHeld(es[1..], held - {e.p1}, next);
        } else {
          PrintedAdd(held - {e.p1}, e.p2);
          CorrectedReportsHeld(es[1..], held - {e.p1} + {e.p2}, next);
        }
    }
  }

  /** The log of a program that mallocs P, reallocs it to a different Q and
      frees Q. */
  function MovedAndFreed(pp: Addr, q: Addr, frames: seq<Addr>): seq<Event> {
    [Event(TagM, pp, NULL, frames), Event(TagR, pp, q, frames), Event(TagF, q, NULL, frames)]
  }

  /** The script as written reports P as leaked for that log, though the
      program holds nothing at the end: the "r" record dropped the key of
      the new pointer Q and stored the trace under the old, already released
      pointer P. */
  lemma ReallocMisreported(pp: Addr, q: Addr, frames: seq<Addr>)
    requires pp != q
    ensures StillHeld(MovedAndFreed(pp, q, frames), {}) == {}
    ensures var r := Replay(AsWritten, LogLines(MovedAndFreed(pp, q, frames)), map[]);
            r.Finished? && PtrText(pp) in r.mem
  {
    var es := MovedAndFreed(pp, q, frames);
    PtrTextInjective(pp, q);
    AnalyserReplaysEvents(AsWritten, es, map[]);
    var m1: map<string, string> := map[PtrText(pp) := TraceText(es[0])];
    var m2 := (m1 - {PtrText(q)})[PtrText(pp) := TraceText(es[1])];
    var m3 := m2 - {PtrText(q)};
    assert es[1..][1..][1..] == [];
    assert EventReplay(AsWritten, es[1..][1..][1..], m3) == m3;
    assert EventReplay(AsWritten, es[1..][1..], m2) == m3;
    assert EventReplay(AsWritten, es[1..], m1) == m3;
    assert EventReplay(AsWritten, es, map[]) == m3;
    assert PtrText(pp) in m3;
    MovedAndFreedHoldsNothing(pp, q, frames);
  }

  /** The program of that log holds nothing at the end. */
  lemma MovedAndFreedHoldsNothing(pp: Addr, q: Addr, frames: seq<Addr>)
    ensures StillHeld(MovedAndFreed(pp, q, frames), {}) == {}
  {
    var es := MovedAndFreed(pp, q, frames);
    var h1: set<Addr> := if pp == NULL then {} else {pp};
    var h2 := if q == NULL then h1 - {pp} else h1 - {pp} + {q};
    assert es[0].tag == TagM && es[1].tag == TagR && es[2].tag == TagF;
    assert es[1..][0] == es[1] && es[1..][1..][0] == es[2] && es[1..][1..][1..] == [];
    assert h1 - {pp} == {} && h2 - {q} == {};
    assert StillHeld(es[1..][1..][1..], h2 - {q}) == {};
    assert StillHeld(es[1..][1..], h2) == {};
    assert StillHeld(es[1..], h1) == {};
    assert StillHeld(es, {}) == StillHeld(es[1..], h1);
  }

  /** The corrected replay of the same log reports nothing. */
  lemma ReallocCorrected(pp: Addr, q: Addr, frames: seq<Addr>)
    ensures var r := Replay(Corrected, LogLines(MovedAndFreed(pp, q, frames)), map[]);
            r.Finished? && r.mem == map[]
  {
    var es := MovedAndFreed(pp, q, frames);
    AnalyserReplaysEvents(Corrected, es, map[]);
    assert Printed({}) == {};
    CorrectedReportsHeld(es, {}, map[]);
    MovedAndFreedHoldsNothing(pp, q, frames);
    assert EventReplay(Corrected, es, map[]).Keys == {};
  }

  /** The log of a malloc that failed: print_function writes "m (nil) (nil)". */
  function FailedMalloc(frames: seq<Addr>): seq<Event> {
    [Event(TagM, NULL, NULL, frames)]
  }

  /** The script as written stores the trace of a failed malloc under
      "(nil)" and so prints it as a leaked block, though the program was
      given no pointer. */
  lemma NilMallocReported(frames: seq<Addr>)
    ensures StillHeld(FailedMalloc(frames), {}) == {}
    ensures var r := Replay(AsWritten, LogLines(FailedMalloc(frames)), map[]);
            r.Finished? && NilText in r.mem
  {
    var es := FailedMalloc(frames);
    AnalyserReplaysEvents(AsWritten, es, map[]);
    PrintedNil(NULL);
    assert es[1..] == [];
    assert EventReplay(AsWritten, es, map[]) == map[NilText := TraceText(es[0])];
  }

  /** The corrected replay of that log reports nothing. */
  lemma NilMallocCorrected(frames: seq<Addr>)
    ensures var r := Replay(Corrected, LogLines(FailedMalloc(frames)), map[]);
            r.Finished? && r.mem == map[]
  {
    var es := FailedMalloc(frames);
    AnalyserReplaysEvents(Corrected, es, map[]);
    assert es[1..] == [];
    assert EventReplay(Corrected, es, map[]) == map[];
  }

  /** Every "m" pointer is freed by a later "f" record, and there is no "r"
      record. */
  predicate AllFreed(es: seq<Event>) {
    && (forall i :: 0 <= i < |es| ==> es[i].tag != TagR)
    && (forall i :: 0 <= i < |es| && es[i].tag == TagM ==>
          exists j :: i < j < |es| && es[j].tag == TagF && es[j].p1 == es[i].p1)
  }

  /** The printed pointers freed somewhere in `es`. */
  function FreedIn(es: seq<Event>): set<string>
    decreases |es|
  {
    if es == [] then {}
    else (if es[0].tag == TagF then {PtrText(es[0].p1)} else {}) + FreedIn(es[1..])
  }

  lemma {:induction false} FreedInHas(es: seq<Event>, j: nat)
    requires j < |es| && es[j].tag == TagF
    ensures PtrText(es[j].p1) in FreedIn(es)
    decreases j
  {
    if j > 0 {
      FreedInHas(es[1..], j - 1);
    }
  }

  lemma {:induction false} AllFreedShrinks(mode: Mode, es: seq<Event>, mem: map<string, string>)
    requires AllFreed(es)
    ensures EventReplay(mode, es, mem).Keys <= mem.Keys - FreedIn(es)
    decreases |es|
  {
    if es != [] {
      var e := es[0];
      var rest := es[1..];
      assert AllFreed(rest) by {
        forall i | 0 <= i < |rest| && rest[i].tag == TagM
          ensures exists j :: i < j < |rest| && rest[j].tag == TagF && rest[j].p1 == rest[i].p1
        {
          var j :| i + 1 < j < |es| && es[j].tag == TagF && es[j].p1 == es[i + 1].p1;
          assert rest[j - 1] == es[j];
        }
      }
      match e.tag
      case TagM =>
        var j :| 0 < j < |es| && es[j].tag == TagF && es[j].p1 == e.p1;
        FreedInHas(rest, j - 1);
        AllFreedShrinks(mode, rest, EventStep(mode, e, mem));
      case TagF =>
        AllFreedShrinks(mode, rest, EventStep(mode, e, mem));
      case TagR =>
        assert false;
    }
  }

  /** A log where every "m" pointer is later freed and nothing is
      reallocated makes the script print no block. */
  lemma AllFreedPrintsNothing(mode: Mode, es: seq<Event>)
    requires AllFreed(es)
    ensures Replay(mode, LogLines(es), map[]) == Finished(map[])
  {
    AnalyserReplaysEvents(mode, es, map[]);
    AllFreedShrinks(mode, es, map[]);
  }

  /** End to end: the lines memlog.so writes for a run of requests, read by
      memlog.js. */
  lemma LoggedRunReplays(mode: Mode, hooks: Hooks.HookState, reqs: seq<LogCall>)
    ensures Replay(mode, LogLines(Run(MemLogger.Init(hooks), reqs).written), map[])
            == Finished(EventReplay(mode, RecordsOf(reqs), map[]))
  {
    RunWritesOneRecordPerCall(MemLogger.Init(hooks), reqs);
    assert [] + RecordsOf(reqs) == RecordsOf(reqs);
    AnalyserReplaysEvents(mode, RecordsOf(reqs), map[]);
  }

  /** The same from the text itself: split at newlines, it is the written
      lines plus the empty string after the last newline, which the script
      skips. */
  lemma LoggedTextReplays(mode: Mode, hooks: Hooks.HookState, reqs: seq<LogCall>)
    ensures var lines := LogLines(Run(MemLogger.Init(hooks), reqs).written);
            Replay(mode, Split(Written(lines), '\n'), map[])
            == Finished(EventReplay(mode, RecordsOf(reqs), map[]))
  {
    var es := Run(MemLogger.Init(hooks), reqs).written;
    LoggedRunReplays(mode, hooks, reqs);
    LogLinesOneLineEach(es);
    SplitWritten(LogLines(es));
    TrailingBlankIgnored(mode, LogLines(es), map[]);
  }
}

=== FILE: machine.dfy ===
/** Machine-level vocabulary shared by the leak tracker, the event logger and
    the log analyser: addresses, the size_t range and an Option type. */
module Machine {

  /** An address in the target process. Addresses are unbounded naturals;
      the value 0 is the null pointer. */
  type Addr = nat

  const NULL: Addr := 0

  /** 2^64: the number of distinct size_t values on the modelled LP64 target. */
  const WORD: nat := 0x1_0000_0000_0000_0000

  const SIZE_MAX: nat := WORD - 1

  /** A byte count as carried by a size_t argument. */
  type Size = n: nat | n <= SIZE_MAX

  datatype Option<T> = None | Some(value: T)
}

=== FILE: mem_logger.dfy ===
/** memlog.c: interceptors that keep no state, and instead write one record
    per call (a header line and the rendered stack). Writing is modelled as
    appending an event to the process's effect trace, in which the real
    allocator calls are recorded too so that their order with the writes
    can be stated. */
module MemLogger {
  import opened Machine
  import opened Hooks
  import opened Backtrace

  /** The first word of a record: "m", "r" or "f". */
  datatype Tag = TagM | TagR | TagF

  /** One print_function call: the tag, the two printed pointers and the
      frames whose symbols follow the header line. */
  datatype Event = Event(tag: Tag, p1: Addr, p2: Addr, frames: seq<Addr>)

  datatype Effect =
    | Emitted(event: Event)
    | RealMalloc(size: Size, ret: Addr)
    | RealRealloc(ptr: Addr, size: Size, ret: Addr)
    | RealFree(ptr: Addr)

  /** The records written to stderr so far, and the hook switch. */
  datatype Logger = Logger(written: seq<Event>, hooks: HookState)

  /** A completed call: the new state, the pointer handed back to the
      program (NULL for free), the hook table live during the body, and
      what the body did, in order. */
  datatype Served = Served(logger: Logger, ret: Addr, during: Table, effects: seq<Effect>)

  /** print_function(tag, p1, p2): capture up to STACKTRACE_LINES + 2
      frames and render all but the first two, print_function's own frame
      and the hook's. When backtrace() returns fewer than two frames (0 when
      glibc cannot load its unwinder), `size - 2` wraps and reaches
      backtrace_symbols_fd as a negative int, so no frame is written. */
  function PrintFunction(tag: Tag, p1: Addr, p2: Addr, chain: seq<Addr>): (e: Event)
    ensures e.tag == tag && e.p1 == p1 && e.p2 == p2
    ensures |Capture(chain, LOG_DEPTH)| >= INTERNAL_FRAMES ==> |e.frames| == |Capture(chain, LOG_DEPTH)| - INTERNAL_FRAMES
    ensures |chain| <= INTERNAL_FRAMES ==> e.frames == []
    ensures |e.frames| <= STACKTRACE_LINES
    ensures forall i :: 0 <= i < |e.frames| ==> e.frames[i] == chain[i + INTERNAL_FRAMES]
  {
    Event(tag, p1, p2, Shown(Capture(chain, LOG_DEPTH)))
  }

  /** The call wrote exactly one record, `e`, after those already written. */
  ghost predicate WroteOne(before: Logger, c: Served, e: Event) {
    c.logger.written == before.written + [e]
  }

  /** malloc_hook(size): the real malloc's pointer `got` is returned as is
      (no header in this mode) and written as "m got (nil)" after the call. */
  function MallocHook(l: Logger, size: Size, got: Addr, chain: seq<Addr>): (c: Served)
    ensures c.ret == got
    ensures var e := PrintFunction(TagM, got, NULL, chain);
            WroteOne(l, c, e) && c.effects == [RealMalloc(size, got), Emitted(e)]
    ensures Restored(l.hooks, c.during, c.logger.hooks)
  {
    var b := Around(l.hooks);
    var e := PrintFunction(TagM, got, NULL, chain);
    Served(Logger(l.written + [e], b.after), got, b.during, [RealMalloc(size, got), Emitted(e)])
  }

  /** realloc_hook(ptr, size): the real realloc's pointer `got` is returned
      as is and written as "r ptr got", input pointer first, after the call. */
  function ReallocHook(l: Logger, ptr: Addr, size: Size, got: Addr, chain: seq<Addr>): (c: Served)
    ensures c.ret == got
    ensures var e := PrintFunction(TagR, ptr, got, chain);
            WroteOne(l, c, e) && c.effects == [RealRealloc(ptr, size, got), Emitted(e)]
    ensures Restored(l.hooks, c.during, c.logger.hooks)
  {
    var b := Around(l.hooks);
    var e := PrintFunction(TagR, ptr, got, chain);
    Served(Logger(l.written + [e], b.after), got, b.during, [RealRealloc(ptr, size, got), Emitted(e)])
  }

  /** free_hook(ptr): "f ptr (nil)" is written first, then the real free
      releases `ptr`. */
  function FreeHook(l: Logger, ptr: Addr, chain: seq<Addr>): (c: Served)
    ensures c.ret == NULL
    ensures var e := PrintFunction(TagF, ptr, NULL, chain);
            WroteOne(l, c, e) && c.effects == [Emitted(e), RealFree(ptr)]
    ensures Restored(l.hooks, c.during, c.logger.hooks)
  {
    var b := Around(l.hooks);
    var e := PrintFunction(TagF, ptr, NULL, chain);
    Served(Logger(l.written + [e], b.after), NULL, b.during, [Emitted(e), RealFree(ptr)])
  }

  /** memdebug_init: one hook(), nothing written yet. */
  function Init(hooks: HookState): (l: Logger)
    ensures l.written == []
    ensures Armed(l.hooks) <==> Bypasses(hooks.current)
  {
    Logger([], Hook(hooks))
  }

  /** One allocator call of the target program, with the real allocator's
      answer and the chain the capture sees. */
  datatype LogCall =
    | MallocReq(size: Size, got: Addr, chain: seq<Addr>)
    | ReallocReq(ptr: Addr, size: Size, got: Addr, chain: seq<Addr>)
    | FreeReq(ptr: Addr, chain: seq<Addr>)

  function Serve(l: Logger, q: LogCall): (c: Served)
    ensures WroteOne(l, c, RecordOf(q))
    ensures Restored(l.hooks, c.during, c.logger.hooks)
  {
    match q
    case MallocReq(size, got, chain) => MallocHook(l, size, got, chain)
    case ReallocReq(ptr, size, got, chain) => ReallocHook(l, ptr, size, got, chain)
    case FreeReq(ptr, chain) => FreeHook(l, ptr, chain)
  }

  /** The record a request makes memlog.so write. */
  function RecordOf(q: LogCall): Event
  {
    match q
    case MallocReq(size, got, chain) => PrintFunction(TagM, got, NULL, chain)
    case ReallocReq(ptr, size, got, chain) => PrintFunction(TagR, ptr, got, chain)
    case FreeReq(ptr, chain) => PrintFunction(TagF, ptr, NULL, chain)
  }

  function RecordsOf(reqs: seq<LogCall>): (es: seq<Event>)
    ensures |es| == |reqs|
    decreases |reqs|
  {
    if reqs == [] then [] else [RecordOf(reqs[0])] + RecordsOf(reqs[1..])
  }

  /** Serve a sequence of requests. */
  function Run(l: Logger, reqs: seq<LogCall>): Logger
    decreases |reqs|
  {
    if reqs == [] then l else Run(Serve(l, reqs[0]).logger, reqs[1..])
  }

  /** Unfolding a run by its first request. */
  lemma RunFirst(l: Logger, reqs: seq<LogCall>)
    requires reqs != []
    ensures Run(l, reqs) == Run(Serve(l, reqs[0]).logger, reqs[1..])
    ensures RecordsOf(reqs) == [RecordOf(reqs[0])] + RecordsOf(reqs[1..])
  {
  }

  /** A run writes exactly one record per request, in request order. */
  lemma {:induction false} RunWritesOneRecordPerCall(l: Logger, reqs: seq<LogCall>)
    ensures Run(l, reqs).written == l.written + RecordsOf(reqs)
    decreases |reqs|
  {
    if reqs != [] {
      RunFirst(l, reqs);
      RunWritesOneRecordPerCall(Serve(l, reqs[0]).logger, reqs[1..]);
      var head, first, tail := l.written, RecordOf(reqs[0]), RecordsOf(reqs[1..]);
      assert (head + [first]) + tail == head + ([first] + tail);
    }
  }

  /** A run from an armed switch leaves it armed, with the same saved hooks. */
  lemma {:induction false} RunKeepsHooks(l: Logger, reqs: seq<LogCall>)
    requires Armed(l.hooks)
    ensures Run(l, reqs).hooks == l.hooks
    decreases |reqs|
  {
    if reqs != [] {
      RunFirst(l, reqs);
      RunKeepsHooks(Serve(l, reqs[0]).logger, reqs[1..]);
    }
  }
}

=== FILE: pointer_text.dfy ===
/** How glibc's printf renders a pointer with %p: "(nil)" for NULL,
    otherwise "0x" followed by lower-case hexadecimal digits without
    leading zeros. memlog.c writes pointers this way and memlog.js uses the
    rendered text as its map key. */
module PointerText {
  import opened Machine

  function Digit(d: nat): (c: char)
    requires d < 16
  {
    if d < 10 then ('0' as int + d) as char else ('a' as int + d - 10) as char
  }

  predicate IsHexDigit(c: char) {
    '0' <= c <= '9' || 'a' <= c <= 'f'
  }

  lemma DigitInjective(a: nat, b: nat)
    requires a < 16 && b < 16
    ensures IsHexDigit(Digit(a))
    ensures Digit(a) == Digit(b) ==> a == b
  {
  }

  /** Hexadecimal digits of a positive number, most significant first. */
  function Hex(n: nat): (s: string)
    requires n > 0
    ensures |s| >= 1
    ensures n < 16 <==> |s| == 1
    ensures forall i :: 0 <= i < |s| ==> IsHexDigit(s[i])
    decreases n
  {
    if n < 16 then [Digit(n)] else Hex(n / 16) + [Digit(n % 16)]
  }

  lemma {:induction false} HexInjective(a: nat, b: nat)
    requires a > 0 && b > 0
    requires Hex(a) == Hex(b)
    ensures a == b
    decreases a
  {
    if a < 16 {
      DigitInjective(a, b);
    } else {
      var sa, sb := Hex(a), Hex(b);
      assert b >= 16;
      assert sa[|sa| - 1] == Digit(a % 16) && sb[|sb| - 1] == Digit(b % 16);
      DigitInjective(a % 16, b % 16);
      assert sa[..|sa| - 1] == Hex(a / 16) && sb[..|sb| - 1] == Hex(b / 16);
      HexInjective(a / 16, b / 16);
    }
  }

  /** printf("%p", p). */
  function PtrText(p: Addr): (s: string)
    ensures |s| > 0 && ' ' !in s && '\n' !in s
  {
    if p == NULL then "(nil)" else "0x" + Hex(p)
  }

  /** Distinct pointers print differently, so a printed pointer names one
      pointer. */
  lemma PtrTextInjective(a: Addr, b: Addr)
    ensures PtrText(a) == PtrText(b) <==> a == b
  {
    if PtrText(a) == PtrText(b) {
      if a == NULL || b == NULL {
        assert PtrText(a)[0] == PtrText(b)[0];
      } else {
        assert PtrText(a)[2..] == Hex(a) && PtrText(b)[2..] == Hex(b);
        HexInjective(a, b);
      }
    }
  }
}
